=== FILE: README.md ===
# CRC and checksum discovery core, modelled in Dafny

This project models the bit-list core of a software-radio toolkit, in Dafny.
The core is used to reverse-engineer the integrity fields of captured frames.
It has three parts:

- `crc_custom.py` computes configurable CRCs (`crcCompute`) and byte-sum
  checksums (`checksumCompute`). It keeps a registry of generator
  polynomials by CRC length (`MASTER_POLY_LIST`). `CrcDefinition` and
  `AcsDefinition` bind a configuration to the data and field ranges of a
  frame, and `crcIterate` searches a Cartesian product of candidate
  settings for the one that checks on the most frames.
- `bit_list_utilities.py` holds the bit-list helpers the rest builds on.
  They invert, rotate and byte-swap lists, gather and scatter positions,
  and convert between bits, integers, bytes and hex characters.
- `build_baseband.py` turns a list of ARB, NRZ (HEX or ASCII) and REG
  elements into a list of `[level, width]` pulses.

A bit is `Zero`, `One` or `X`. `X` is the source's `LOGIC_X`, the marker
for an unknown or failed bit. Lists are `seq<Bit>`, integers are unbounded
(the source is Python), and every operation is a pure function over values,
except `BitLists.WriteDisjointBitsInPlace`, which writes into an array as
`writeDisjointBits` writes into its list argument.
Python crashes become either an explicit error result (`WriteDisjointBits`,
`Baseband.BuildWidthList`) or a `requires` clause that states what a
successful run needs (`CrcCompute` needs a binary payload and parameters).

Modules, in dependency order:

- `BitLists` (bitlists.dfy): bit_list_utilities.py, except the hex helpers.
- `HexBits` (hexbits.dfy): the nibble and hex-byte helpers of bit_list_utilities.py.
- `CrcEngine` (crc.dfy): option codes and `crcCompute`, stage by stage.
  The stages are padding, input bit order, tail bits, long division,
  remainder, final reversal and final XOR.
- `Polynomials` (polys.dfy): the polynomial registry.
- `Checksum` (checksum.dfy): `checksumCompute`.
- `Binding` (binding.dfy): `CrcDefinition` and `AcsDefinition` with their
  compute and check methods.
- `Odometer` (odometer.dfy): the enumeration order of `itertools.product`.
- `Search` (search.dfy): `CrcDefinition.crcIterate`.
- `Baseband` (baseband.dfy): `toggleLevel`, `nibbleToBits` and `buildWidthList`.

Three behaviours of `crcCompute` that a reader might not expect, as the code has them:

- With the REFLECT bit order, the loop reverses every whole byte and leaves a
  trailing partial byte in place (`CrcEngine.Reflect`). The source's comment
  at crc_custom.py:378-379 notes that reflection only works on whole bytes.
- The working buffer's tail is `len(crcPoly) - 1` copies of `initVal`,
  appended after the reordered payload (crc_custom.py:397-398).
- The division pivots only on the first len(payload) positions of the
  reordered, padded buffer (crc_custom.py:406). In normal order the pad bits
  are therefore never pivots; `CrcEngine.CrcIgnoresPayloadUnderLongPad`
  shows a consequence. Under REVERSE the pad bits come first and the last
  padCount payload bits are never pivots, and under REFLECT with a partial
  last byte the reflection moves pad bits into the pivot range and payload
  bits out of it.

## Model

| member | source | states |
|---|---|---|
| BitLists.InvertBit | bit_list_utilities.py:15-23 | 0 and 1 swap, and anything else becomes X |
| BitLists.InvertBitInvolution | bit_list_utilities.py:15-23 | inverting a bit twice restores it, X included |
| BitLists.InvertBitList | bit_list_utilities.py:26-34 | same length, each 0 written as 1 and each 1 or X written as 0, so the result is always binary |
| BitLists.InvertBitListInvolution | bit_list_utilities.py:26-34 | inverting a binary list twice restores it |
| BitLists.RotateBitList | bit_list_utilities.py:39-54 | with invert, position k holds the complement of the bit at (k - rotate) mod len, so it is a right rotation; without invert the result is empty |
| BitLists.RotateRightInverse | bit_list_utilities.py:39-54 | rotating by n and then by -n restores any list |
| BitLists.RotateBitListInverse | bit_list_utilities.py:39-54 | rotateBitList by n, then by -n, restores a binary list because the two inversions cancel |
| BitLists.ByteReverse | bit_list_utilities.py:59-64 | a 16-bit list has its two bytes swapped; any other length gives sixteen X |
| BitLists.ByteReverseInvolution | bit_list_utilities.py:59-64 | swapping the bytes twice restores a 16-bit list |
| BitLists.ExtractDisjointedBits | bit_list_utilities.py:70-77 | one bit per listed index, and X for an index past the end |
| BitLists.WriteDisjointBits | bit_list_utilities.py:85-98 | the three rejections hold exactly when their conditions do (length mismatch, empty list, index out of range); otherwise unlisted positions keep their bits and each listed position holds its last written value |
| BitLists.WriteDisjointBitsInPlace | bit_list_utilities.py:85-98 | the in-place loop agrees with WriteDisjointBits, and a rejected write leaves the array untouched |
| BitLists.ExtractAfterWrite | bit_list_utilities.py:70-98 | with distinct in-range indices, extracting the written positions returns the new data |
| BitLists.BitsToDec | bit_list_utilities.py:106-133 | -1 exactly for a non-invert call on a list holding an X; otherwise a value below 2^len; for a binary list it is the MSB-first value, or the LSB-first value under reverse, complemented under invert; under invert a list holding an X is first inverted (X written as 0) and read the same way |
| BitLists.BitsToDecReverse | bit_list_utilities.py:117-120 | with reverse, a binary list reads as its reversal read MSB first, with or without invert |
| BitLists.MsbValueInvert | bit_list_utilities.py:106-133 | the value of the inverted list is 2^len - 1 minus the value of the list |
| BitLists.DecToPaddedBits | bit_list_utilities.py:139-151 | a value below 2^numBits gives a binary list of max(numBits, 1) bits that reads back as the value; a larger value gives numBits X |
| BitLists.BitsToDecRoundTrip | bit_list_utilities.py:106-151 | decToPaddedBits(bitsToDec(b), len(b)) is b for every non-empty binary list |
| BitLists.DecToPaddedBitsRoundTrip | bit_list_utilities.py:106-151 | bitsToDec(decToPaddedBits(v, n)) is v for every v below 2^n |
| BitLists.ByteListToBits | bit_list_utilities.py:155-159 | eight bits per byte, binary when every value is a byte |
| BitLists.BitListToByteList | bit_list_utilities.py:200-208 | one value per started group of eight bits, each from -1 to 255, none negative for a binary list |
| BitLists.ByteListRoundTrip | bit_list_utilities.py:200-208 | converting a byte list to bits and back restores it |
| BitLists.BitListRoundTrip | bit_list_utilities.py:155-159 | converting a whole-byte binary list to bytes and back restores it |
| HexBits.BitsToNibble | bit_list_utilities.py:176-196 | a hex digit exactly for four binary bits, whose value it carries (bits reversed first under reverse); 'X' otherwise |
| HexBits.NibbleToBits | bit_list_utilities.py:221-240 | four bits, binary exactly for an upper-case hex digit and carrying its value; XXXX otherwise |
| HexBits.NibbleRoundTrip | bit_list_utilities.py:221-240 | bitsToNibble(nibbleToBits(c)) is c for every hex digit |
| HexBits.BitsNibbleRoundTrip | bit_list_utilities.py:176-196 | nibbleToBits(bitsToNibble(b)) is b for every four-bit binary list |
| HexBits.BitsToHexByteString | bit_list_utilities.py:213-217 | two characters, "XX" unless the list has eight bits |
| HexBits.HexByteStringValue | bit_list_utilities.py:213-217 | for eight bits, both characters are hex digits exactly when the bits are binary, and then the pair spells the byte's value |
| HexBits.HexByteToBits | bit_list_utilities.py:243-249 | eight bits for "0" or any string of two or more characters |
| HexBits.HexByteZero | bit_list_utilities.py:243-249 | the special string "0" gives eight zero bits |
| HexBits.HexByteValue | bit_list_utilities.py:243-249 | the bits are binary exactly when the first two characters are hex digits, and then they carry 16 times the first digit plus the second |
| HexBits.HexByteRoundTrip | bit_list_utilities.py:243-249 | hexByteToBits(bitsToHexByteString(b)) is b for every eight-bit binary list |
| HexBits.HexStringRoundTrip | bit_list_utilities.py:213-217 | bitsToHexByteString(hexByteToBits(s)) is s for every two-digit hex string |
| HexBits.NibbleInvert | bit_list_utilities.py:253-271 | a hex digit maps to the digit of value 15 minus its value, and anything else to 'X' |
| HexBits.NibbleInvertIsBitInversion | bit_list_utilities.py:253-271 | inverting a digit is inverting its four bits |
| HexBits.HexStringToDec | bit_list_utilities.py:275-276 | as written: for two hex digits, the byte value, or 255 minus it when reverse is set |
| HexBits.HexStringToDecReverseDiscrepancy | bit_list_utilities.py:275-276 | "01" with reverse gives 254 as written, and 128 when the flag reaches bitsToDec's reverse parameter |
| HexBits.HexStringToDecLsbFirst | bit_list_utilities.py:275-276 | corrected: without reverse, the byte value of two hex digits |
| HexBits.LsbFirstRoundTrip | bit_list_utilities.py:275-276 | corrected: writing a byte LSB first and reading it back with reverse gives its MSB-first value |
| CrcEngine.BitOrderOfCode | crc_custom.py:380-392 | code 2 reflects and code 1 reverses, exactly; any other code processes the bits as they are |
| CrcEngine.PadTypeOfCode | crc_custom.py:366-376 | code 2 pads absolutely and code 1 pads to even, exactly; any other code does not pad |
| CrcEngine.FinalReversalOfCode | crc_custom.py:17-20 | the three final-reversal options have codes 0, 1 and 2 |
| CrcEngine.PySuffix | crc_custom.py:414 | Python's s[start:]: the last -start elements for a negative start, clamped to the list |
| CrcEngine.PyMod | crc_custom.py:372 | Python's %: the remainder takes the divisor's sign |
| CrcEngine.PadPayload | crc_custom.py:366-376 | no padding, padCount copies of padVal, or len % padCount copies (len copies when padCount is 0), appended to the payload |
| CrcEngine.PadToEvenReachesMultipleIff | crc_custom.py:370-376 | PAD_TO_EVEN reaches a multiple of padCount exactly when twice the remainder does, so it is not always a multiple |
| CrcEngine.PadToEvenExamples | crc_custom.py:370-376 | with padCount 8: 16 bits stay 16, 20 become 24, and 21 become 26, which is not a multiple of 8 |
| CrcEngine.PadToMultiple | crc_custom.py:370-376 | corrected padding: the payload plus fewer than padCount pad bits, with a length that is a multiple of padCount |
| CrcEngine.PadToMultipleIsLeast | crc_custom.py:370-376 | corrected padding: no shorter padding reaches a multiple |
| CrcEngine.Reflect | crc_custom.py:380-386 | each whole byte is reversed in place, and a trailing partial byte is kept as it is |
| CrcEngine.ReflectInvolution | crc_custom.py:380-386 | reflecting twice restores the list |
| CrcEngine.ReflectMultiset | crc_custom.py:380-386 | reflecting only permutes the bits |
| CrcEngine.ReorderInput | crc_custom.py:380-392 | every bit order is a permutation of the padded payload, so binary stays binary |
| CrcEngine.AddPolyAt | crc_custom.py:408-409 | the inner loop adds the polynomial mod 2 at offset i |
| CrcEngine.LongDivision | crc_custom.py:406-409 | the loop computes the division; with a leading-one polynomial, the first len(payload) bits end up zero |
| CrcEngine.StepClears | crc_custom.py:406-409 | a step at a cleared prefix clears one more bit |
| CrcEngine.DivideClearsPrefix | crc_custom.py:406-409 | after the division, every processed position holds 0 |
| CrcEngine.DivideKeepsTail | crc_custom.py:406-409 | positions past the polynomial's reach are untouched |
| CrcEngine.DivideAppend | crc_custom.py:406-409 | bits appended past the reach pass through the division unchanged |
| CrcEngine.DividePerturb | crc_custom.py:406-409 | the division is linear: a difference that is zero at the tested positions passes through |
| CrcEngine.FinalReverse | crc_custom.py:417-422 | REVERSE_BYTES gives 16 bits; the other options permute the remainder |
| CrcEngine.ApplyFinalXor | crc_custom.py:425-432 | a bit is 1 exactly when one of the CRC bit and the mask bit is 1 |
| CrcEngine.ApplyFinalXorInvolution | crc_custom.py:425-432 | applying the same mask twice restores a binary CRC |
| CrcEngine.WorkingBuffer | crc_custom.py:366-398 | the padded payload, permuted by the bit order, followed by exactly len(crcPoly) - 1 copies of initVal |
| CrcEngine.CrcRemainder | crc_custom.py:406-414 | len(crcPoly) - 1 bits for a polynomial of length two or more; the whole buffer for length one |
| CrcEngine.CrcCompute | crc_custom.py:350-432 | a binary result of len(crcPoly) - 1 bits unless bytes are swapped; a swap of a remainder that is not 16 bits leaves only the mask |
| CrcEngine.PlainCrcIsRemainder | crc_custom.py:394-414 | with no options, the CRC is the remainder of data times x^k divided by the polynomial, the quotient region being cleared |
| CrcEngine.CrcResidueZero | crc_custom.py:350-432 | with no options, the data followed by its own CRC has an all-zero CRC |
| CrcEngine.CodewordCrcZero | crc_custom.py:350-432 | any data and remainder pair that the division relates gives an all-zero CRC for the codeword |
| CrcEngine.LongPadBuffer | crc_custom.py:366-398 | with absolute padding in normal order, the buffer is payload, pad bits, then initVal tail bits |
| CrcEngine.CrcIgnoresPayloadUnderLongPad | crc_custom.py:366-414 | with absolute padding of at least len(crcPoly) - 1 bits, the CRC depends on initVal and the mask only, not on the payload |
| Polynomials.RegistryWellFormed | crc_custom.py:34-139 | every registered polynomial of length n has n + 1 binary coefficients with a leading 1 |
| Polynomials.RegistryLengths | crc_custom.py:34-139 | the lengths that have polynomials are exactly 3-8, 10-17, 21, 24, 30, 32, 40 and 64 |
| Polynomials.Crc8CcittKnownAnswer | crc_custom.py:63 | the CCITT CRC-8 of 0xC3 is 0x47 |
| Checksum.Reduce | crc_custom.py:501-502 | the sum reduced mod 2^numOutputBits is in range |
| Checksum.ChecksumCompute | crc_custom.py:479-505 | the checksum lies in 0 .. 2^numOutputBits - 1 |
| Checksum.SumGroups | crc_custom.py:489-499 | the loop adds the value of each group of eight bits starting before dataStop to initSum |
| Checksum.ChecksumLoop | crc_custom.py:489-505 | the loop with its reduction computes ChecksumCompute |
| Checksum.ByteSwapOptionIsIgnored | crc_custom.py:503-504 | REVERSE_BYTES computes the same checksum as REVERSE_FALSE |
| Checksum.GroupSumIsByteSum | crc_custom.py:489-499 | on whole bytes, the group sum is the sum of the bytes bit_list_to_byte_list reads, complemented under invert |
| Checksum.ByteListGroupSum | crc_custom.py:489-499 | summing the bits of a byte list adds up its bytes |
| Checksum.ChecksumIsByteSum | crc_custom.py:479-505 | over a whole-byte frame, the checksum is initSum plus the byte sum, mod 2^numOutputBits |
| Binding.ComputeCRC | crc_custom.py:181-191 | the CRC of the inclusive data range is binary, with the polynomial's degree in bits |
| Binding.CheckCRC | crc_custom.py:196-207 | true exactly when the CRC field equals the computed CRC, so a field holding an X never checks |
| Binding.CrcDependsOnDataRange | crc_custom.py:181-191 | frames that agree on the data range have the same CRC |
| Binding.ComputeThenCheckCRC | crc_custom.py:181-207 | writing computeCRC into a disjoint field of the right size makes checkCRC true |
| Binding.ComputeACS | crc_custom.py:308-315 | the checksum of the frame is in range |
| Binding.CheckACS | crc_custom.py:318-327 | true exactly when the field is binary and its MSB-first value is the computed checksum |
| Binding.CheckAcsRejectsUnknown | crc_custom.py:318-327 | a field holding an X never checks |
| Binding.AcsFootprint | crc_custom.py:308-315 | frames that agree from dataStart to dataStop + 6 have the same checksum |
| Binding.ComputeThenCheckACS | crc_custom.py:308-327 | writing computeACS into a field clear of the summed bits, and wide enough, makes checkACS true |
| Odometer.EnumerateLength | crc_custom.py:234-245 | the product has as many tuples as the product of the factor sizes |
| Odometer.EnumerateMembers | crc_custom.py:234-245 | the product holds exactly the in-range index tuples |
| Odometer.EnumerateSorted | crc_custom.py:234-245 | tuples come in strictly increasing lexicographic order, the last factor varying fastest |
| Search.Candidate | crc_custom.py:234-245 | a tuple of indices picks a polynomial from the registry entry for crcLen |
| Search.SolutionSpace | crc_custom.py:234-245 | one candidate per tuple, every polynomial from the registry |
| Search.SolutionSpaceCovers | crc_custom.py:234-245 | every combination of candidate values appears in the space |
| Search.SolutionSpaceNonEmpty | crc_custom.py:234-245 | the space is non-empty exactly when every factor is |
| Search.SuccessList | crc_custom.py:247-264 | entry k is true exactly when frame k checks under the candidate |
| Search.MatchCountExtremes | crc_custom.py:266-268 | a score equals the number of frames exactly when every frame checks, and is 0 exactly when none does |
| Search.Scores | crc_custom.py:266-268 | one score per candidate, each at most the number of frames |
| Search.IndexOfBest | crc_custom.py:271 | the first position of a maximal score |
| Search.IndexOfBestUnique | crc_custom.py:271 | a maximal position with no earlier maximum is the one chosen |
| Search.SelectBest | crc_custom.py:247-271 | the two loops compute the first position of the best score |
| Search.CrcIterate | crc_custom.py:233-284 | the result scores at least as well as every candidate and strictly better than every earlier one |
| Search.CrcIterateFindsPerfectCandidate | crc_custom.py:233-284 | if some candidate checks on every frame, so does the one returned |
| Baseband.ToggleLevel | build_baseband.py:5-10 | 1 exactly for level 0, and 0 otherwise |
| Baseband.ToggleLevelInvolution | build_baseband.py:5-10 | toggling 0 or 1 twice restores it |
| Baseband.NibbleToBits | build_baseband.py:12-29 | a hex digit gives four binary bits; anything else fails, since the source's local is then unbound |
| Baseband.NibbleTablesAgree | build_baseband.py:12-29 | the baseband table agrees with the bit-utility table on every hex digit |
| Baseband.ArbPulses | build_baseband.py:77-81 | one pulse per width, starting at the given level and toggling after each |
| Baseband.ArbLevelsAlternate | build_baseband.py:77-81 | from level 0 or 1, pulse k has level (level + k) mod 2 |
| Baseband.RegPulses | build_baseband.py:109-119 | 2 * pulseCount pulses, none for a negative count |
| Baseband.RegPulsesRepeat | build_baseband.py:109-119 | pulse pairs repeat: the start level, then the toggled level |
| Baseband.BitPulses | build_baseband.py:89-93 | a 0 bit is a low pulse of lowWidth, anything else a high pulse of highWidth |
| Baseband.HexTokenBits | build_baseband.py:88 | a token succeeds exactly when its first two characters are hex digits, with hexByteToBits' bits |
| Baseband.HexBytesBits | build_baseband.py:85-88 | all tokens succeed exactly when each is a hex token, giving eight bits per token |
| Baseband.HexBytesBitsChunks | build_baseband.py:85-88 | byte k of the HEX bits is token k's bits |
| Baseband.ZeroFill8 | build_baseband.py:98 | binary digits of the value, eight for a byte |
| Baseband.CharBits | build_baseband.py:97-102 | the character's bits read back as its code, LSB first when the LSB option is set |
| Baseband.AsciiBits | build_baseband.py:94-107 | binary, eight bits per byte-sized character |
| Baseband.AsciiBitsChunks | build_baseband.py:94-107 | byte k of the ASCII bits reads back as character k's code |
| Baseband.ElementPulses | build_baseband.py:76-119 | only an NRZ HEX element can fail |
| Baseband.ElementPulsesCount | build_baseband.py:76-119 | a buildable element gives as many pulses as its kind dictates |
| Baseband.JoinAppend | build_baseband.py:76-119 | joining two lists of element results is the first failure, or the concatenation |
| Baseband.Pulses | build_baseband.py:73-121 | building succeeds exactly when every element does |
| Baseband.PulsesLength | build_baseband.py:73-121 | buildable elements give the sum of their pulse counts |
| Baseband.PulsesAppend | build_baseband.py:73-121 | the pulses of two element lists are the first failure, or the concatenation |
| Baseband.PulsesExtend | build_baseband.py:73-121 | each loop iteration appends one element's pulses, or stops at its failure |
| Baseband.PulsesStopAt | build_baseband.py:73-121 | the first failing element decides the outcome |
| Baseband.BuildWidthList | build_baseband.py:73-121 | on success the width list is the elements' pulses and the rest of the definition is kept |
| Baseband.BuildWidthListIdempotent | build_baseband.py:73-121 | building twice gives the same definition |
| Baseband.BuildWidthListLoop | build_baseband.py:73-121 | the element loop computes Pulses |

## Left out

- Radio front ends, ZeroMQ transport and file handling (`rf_*.py`, `zmq_utils.py`, `readFromFile`, `writeWaveToFile`, `buildBaseband`): I/O outside the core.
- `buildWave`, `addSamples` and `microsecondsToSamples`: sample generation in floating point.
- Diagnostic output: the print helpers, the property strings, the `verbose` output of `crcIterate`, and the warnings of `checksumCompute` and `bit_list_to_byte_list`.
- Module-level `crcIterate`, `checkSumIterate` and `AcsDefinition.iterateACS`: empty stubs in the source.
- `hexShortToDec`: it calls a `hexToDec` that the repository does not define.
- `print_bytes_as_ascii`: output only.
- `bitsToStr`: a string conversion used only for display.
- Negative Python indices: start positions are `nat`, and stops are at least -1, so `stop + 1` never counts from the end. `PySuffix` alone models a negative start, because `crcCompute` itself takes `payloadIn[-(len(crcPoly) - 1):]`.
- `int()` parsing of element fields and Python 2 byte strings: elements arrive already parsed, with integer fields and text as a `string`.
- The element kinds are matched exclusively. The source's separate `if` tests on `element[0]` can only match one kind per element, so nothing changes.
- Baseband.BuildWidthList: when an element fails, the source has already appended the pulses of every earlier element to `self.widthList` before the exception escapes. The model returns only the failure. The pulses left behind are `Pulses(elements[..i]).value` for the failing index i, which `Baseband.PulsesExtend` and `Baseband.PulsesStopAt` describe, but BuildWidthList does not return them.
- `buildWidthList` returns `[]` and stores the pulses in `self.widthList`. The model returns the updated definition instead.
- Search.CrcIterate: models the evident intent. As written, building the product already raises: it reads `self.PadType`, `self.PadCount` and `self.PadVal`, while the constructor stores `padType`, `padCount` and `padVal`. Past that, the loop reads the unbound names `padCount` and `padVal`, `sum(int(successList))` raises, the method prints the best tuple and returns 0, and an empty space makes `max()` raise (hence `NonEmptyFactors`). A candidate the CRC engine cannot compute on a frame counts as a miss.
- CrcEngine.CrcCompute: requires a binary payload, binary initVal, padVal and polynomial, and a final mask at least as long as the CRC. Python computes something for some other inputs (an X is treated as 0 by `== 1` tests), but crcCompute documents its inputs as lists of 0 and 1, and the other cases are not modelled.
- CrcEngine.CrcCompute: an input bit-order or final-reversal code outside the option lists is represented by the datatype's values. A final-reversal code outside 0-2 leaves `crcOut` unbound in the source.
- BitLists.WriteDisjointBits: the scatter into frames is stated through `Binding.Splice` rather than `writeDisjointBits`, since CRC and checksum fields are contiguous ranges.
- HexBits.BitsToHexByteString and HexBits.HexByteToBits: their value properties are stated in the lemmas HexByteStringValue and HexByteValue rather than in the functions' own ensures.
- Baseband.NibbleToBits: its bit values are stated through NibbleTablesAgree, against HexBits.NibbleToBits.
- Polynomials.RegistryWellFormed: the 40- and 64-bit polynomials, which the source builds with `decToPaddedBits`, are written out as bit strings.
- Checksum.ChecksumCompute: `numOutputBits` is a `nat`. A negative count gives a fractional modulus in Python and is not modelled.
- Checksum.ChecksumIsByteSum: covers frames that start at position 0 and hold whole bytes, in MSB-first order. Other layouts are covered only by the group-sum definition.
- CrcEngine.PadPayload: the CRC engine keeps the PAD_TO_EVEN padding as written, because captured frames carry the CRCs the program computes. PadToMultiple is the corrected reference, and it is not wired into CrcCompute.

## Findings

| source | as written | input that shows it | evidently intended | confidence | as-written member | corrected member |
|---|---|---|---|---|---|---|
| bit_list_utilities.py:275-276 | `bitsToDec(hexByteToBits(s), reverse)` passes the flag positionally into bitsToDec's `invert` parameter, so "reverse" complements the byte | "01" with reverse set gives 254 | the flag reaches `reverse`, reading the byte LSB first: "01" gives 128 | not executed | HexBits.HexStringToDecReverseDiscrepancy | HexBits.LsbFirstRoundTrip |
| crc_custom.py:370-376 | PAD_TO_EVEN appends `len % padCount` pad bits, not the number of bits that are "short of even" | a 21-bit payload with padCount 8 is padded to 26 bits | the fewest pad bits that reach a multiple of padCount: 21 bits are padded to 24 | not executed | CrcEngine.PadToEvenExamples | CrcEngine.PadToMultipleIsLeast |

=== FILE: baseband.dfy ===
/**
 * The width-list builder of build_baseband.py: a list of tokenised waveform
 * elements (ARB, NRZ and REG lines) is translated into a list of
 * (level, width) pulses.  Tokens are taken as already parsed: the integer
 * fields hold the values int() reads from them.
 */
module Baseband {
  import opened BitLists
  import HexBits

  /** toggleLevel: 0 becomes 1 and every other level becomes 0. */
  function ToggleLevel(level: int): (r: int)
    ensures r == 0 || r == 1
    ensures r == 1 <==> level == 0
  {
    if level == 0 then 1 else 0
  }

  lemma ToggleLevelInvolution(level: int)
    requires level == 0 || level == 1
    ensures ToggleLevel(ToggleLevel(level)) == level
  {
  }

  /** Why a width list cannot be built: a hex token character outside
      0-9A-F leaves nibbleToBits' result unbound, and a one-character hex
      token is indexed past its end. */
  datatype Failure = UnknownNibble | ShortByteToken

  datatype Outcome<T> = Ok(value: T) | Fails(failure: Failure)

  /** nibbleToBits of build_baseband.py: its own table of the sixteen
      upper-case hex digits. */
  function NibbleToBits(c: char): (r: Outcome<seq<Bit>>)
    ensures r.Ok? <==> HexBits.IsHexDigit(c)
    ensures r.Ok? ==> |r.value| == 4 && IsBinary(r.value)
  {
    var r := match c
      case '0' => Ok([Zero, Zero, Zero, Zero])
      case '1' => Ok([Zero, Zero, Zero, One])
      case '2' => Ok([Zero, Zero, One, Zero])
      case '3' => Ok([Zero, Zero, One, One])
      case '4' => Ok([Zero, One, Zero, Zero])
      case '5' => Ok([Zero, One, Zero, One])
      case '6' => Ok([Zero, One, One, Zero])
      case '7' => Ok([Zero, One, One, One])
      case '8' => Ok([One, Zero, Zero, Zero])
      case '9' => Ok([One, Zero, Zero, One])
      case 'A' => Ok([One, Zero, One, Zero])
      case 'B' => Ok([One, Zero, One, One])
      case 'C' => Ok([One, One, Zero, Zero])
      case 'D' => Ok([One, One, Zero, One])
      case 'E' => Ok([One, One, One, Zero])
      case 'F' => Ok([One, One, One, One])
      case _ => Fails(UnknownNibble);
    r
  }

  /** The table agrees with the one in bit_list_utilities.py wherever it is
      defined. */
  lemma NibbleTablesAgree(c: char)
    requires HexBits.IsHexDigit(c)
    ensures NibbleToBits(c) == Ok(HexBits.NibbleToBits(c))
  {
  }

  /** One entry of the width list. */
  datatype Pulse = Pulse(level: int, width: int)

  /** An ARB element: one pulse per width, the first at the given level and
      each later one at the toggled level of its predecessor. */
  function ArbPulses(level: int, widths: seq<int>): (r: seq<Pulse>)
    ensures |r| == |widths|
    ensures forall k :: 0 <= k < |r| ==> r[k].width == widths[k]
    ensures |r| > 0 ==> r[0].level == level
    ensures forall k :: 0 < k < |r| ==> r[k].level == ToggleLevel(r[k - 1].level)
    decreases |widths|
  {
    if |widths| == 0 then [] else [Pulse(level, widths[0])] + ArbPulses(ToggleLevel(level), widths[1..])
  }

  /** From a 0/1 start the ARB levels alternate with the parity of the
      position. */
  lemma {:induction false} ArbLevelsAlternate(level: int, widths: seq<int>, k: nat)
    requires level == 0 || level == 1
    requires k < |widths|
    ensures ArbPulses(level, widths)[k].level == (level + k) % 2
  {
    var r := ArbPulses(level, widths);
    if k > 0 {
      ArbLevelsAlternate(level, widths, k - 1);
      assert r[k].level == ToggleLevel(r[k - 1].level);
      ToggleParity(level + k - 1);
    }
  }

  lemma ToggleParity(x: nat)
    ensures ToggleLevel(x % 2) == (x + 1) % 2
  {
    if x % 2 == 0 {
      assert (x + 1) % 2 == 1;
    } else {
      assert (x + 1) % 2 == 0;
    }
  }

  /** The pulse of a REG element at a level: low for level 0, high for any
      other. */
  function LevelPulse(level: int, lowWidth: int, highWidth: int): Pulse {
    if level == 0 then Pulse(0, lowWidth) else Pulse(1, highWidth)
  }

  /** n pulses starting at level, toggling after each. */
  function Alternate(level: int, lowWidth: int, highWidth: int, n: nat): (r: seq<Pulse>)
    ensures |r| == n
    ensures n > 0 ==> r[0] == LevelPulse(level, lowWidth, highWidth)
    ensures forall k :: 0 < k < n ==> r[k] == LevelPulse(ToggleLevel(r[k - 1].level), lowWidth, highWidth)
    decreases n
  {
    if n == 0 then []
    else [LevelPulse(level, lowWidth, highWidth)] + Alternate(ToggleLevel(level), lowWidth, highWidth, n - 1)
  }

  /** A REG element: 2 * pulseCount alternating pulses, none for a negative
      count (an empty xrange). */
  function RegPulses(level: int, lowWidth: int, highWidth: int, pulseCount: int): (r: seq<Pulse>)
    ensures |r| == Max(2 * pulseCount, 0)
  {
    Alternate(level, lowWidth, highWidth, Max(2 * pulseCount, 0))
  }

  /** A REG element is pulseCount copies of the same two pulses: the one for
      its start level, then the one for the toggled level. */
  lemma {:induction false} RegPulsesRepeat(level: int, lowWidth: int, highWidth: int, pulseCount: int, i: nat)
    requires i < pulseCount
    ensures RegPulses(level, lowWidth, highWidth, pulseCount)[2 * i] == LevelPulse(level, lowWidth, highWidth)
    ensures RegPulses(level, lowWidth, highWidth, pulseCount)[2 * i + 1] == LevelPulse(ToggleLevel(level), lowWidth, highWidth)
  {
    var r := RegPulses(level, lowWidth, highWidth, pulseCount);
    if i > 0 {
      RegPulsesRepeat(level, lowWidth, highWidth, pulseCount, i - 1);
      assert r[2 * i] == LevelPulse(ToggleLevel(r[2 * i - 1].level), lowWidth, highWidth);
    }
    assert r[2 * i + 1] == LevelPulse(ToggleLevel(r[2 * i].level), lowWidth, highWidth);
  }

  /** An NRZ bit list as pulses: a 0 is a low pulse, anything else a high
      one. */
  function BitPulses(bits: seq<Bit>, lowWidth: int, highWidth: int): (r: seq<Pulse>)
    ensures |r| == |bits|
    ensures forall k :: 0 <= k < |bits| ==>
      r[k] == if bits[k] == Zero then Pulse(0, lowWidth) else Pulse(1, highWidth)
  {
    seq(|bits|, k requires 0 <= k < |bits| => if bits[k] == Zero then Pulse(0, lowWidth) else Pulse(1, highWidth))
  }

  /** The eight bits of one HEX token, from its first two characters.  The
      first character is converted before the second is looked up, which
      fixes which failure a token such as "G" or "A" reports. */
  function HexTokenBits(tok: string): (r: Outcome<seq<Bit>>)
    ensures r.Ok? <==> |tok| >= 2 && HexBits.IsHexDigit(tok[0]) && HexBits.IsHexDigit(tok[1])
    ensures r.Ok? ==> r.value == HexBits.HexByteToBits(tok)
  {
    if |tok| == 0 then Fails(ShortByteToken)
    else
      var high := NibbleToBits(tok[0]);
      if high.Fails? then high
      else if |tok| < 2 then Fails(ShortByteToken)
      else
        var low := NibbleToBits(tok[1]);
        if low.Fails? then low
        else
          NibbleTablesAgree(tok[0]);
          NibbleTablesAgree(tok[1]);
          Ok(high.value + low.value)
  }

  predicate HexToken(tok: string) {
    |tok| >= 2 && HexBits.IsHexDigit(tok[0]) && HexBits.IsHexDigit(tok[1])
  }

  /** The HEX element's bit list: the tokens' bits in order, or the first
      token's failure. */
  function HexBytesBits(tokens: seq<string>): (r: Outcome<seq<Bit>>)
    ensures r.Ok? <==> forall k :: 0 <= k < |tokens| ==> HexToken(tokens[k])
    ensures r.Ok? ==> |r.value| == 8 * |tokens|
  {
    if |tokens| == 0 then Ok([])
    else
      var head := HexTokenBits(tokens[0]);
      if head.Fails? then Fails(head.failure)
      else
        var rest := HexBytesBits(tokens[1..]);
        assert forall k :: 1 <= k < |tokens| ==> tokens[k] == tokens[1..][k - 1];
        if rest.Fails? then rest else Ok(head.value + rest.value)
  }

  /** The pieces joined in order. */
  function Concat<T>(pieces: seq<seq<T>>): seq<T> {
    if |pieces| == 0 then [] else pieces[0] + Concat(pieces[1..])
  }

  lemma {:induction false} ConcatBinary(pieces: seq<seq<Bit>>)
    requires forall j :: 0 <= j < |pieces| ==> IsBinary(pieces[j])
    ensures IsBinary(Concat(pieces))
  {
    if |pieces| > 0 {
      assert forall j :: 0 <= j < |pieces| - 1 ==> pieces[1..][j] == pieces[j + 1];
      ConcatBinary(pieces[1..]);
      var h, t := pieces[0], Concat(pieces[1..]);
      assert forall i :: 0 <= i < |h + t| ==> (h + t)[i] == if i < |h| then h[i] else t[i - |h|];
    }
  }

  lemma {:induction false} ConcatLength<T>(pieces: seq<seq<T>>)
    requires forall j :: 0 <= j < |pieces| ==> |pieces[j]| == 8
    ensures |Concat(pieces)| == 8 * |pieces|
  {
    if |pieces| > 0 {
      assert forall j :: 0 <= j < |pieces| - 1 ==> pieces[1..][j] == pieces[j + 1];
      ConcatLength(pieces[1..]);
    }
  }

  /** With eight-element pieces, positions 8k .. 8k + 7 hold piece k. */
  lemma {:induction false} ConcatChunk<T>(pieces: seq<seq<T>>, k: nat)
    requires forall j :: 0 <= j < |pieces| ==> |pieces[j]| == 8
    requires k < |pieces|
    ensures |Concat(pieces)| == 8 * |pieces|
    ensures Concat(pieces)[8 * k..8 * k + 8] == pieces[k]
  {
    ConcatLength(pieces);
    var h, t := pieces[0], Concat(pieces[1..]);
    if k == 0 {
      SliceInFirst(h, t, 0, 8);
    } else {
      assert forall j :: 0 <= j < |pieces| - 1 ==> pieces[1..][j] == pieces[j + 1];
      ConcatChunk(pieces[1..], k - 1);
      SliceInSecond(h, t, 8 * k, 8 * k + 8);
    }
  }

  /** The slice of a + b that lies wholly inside a. */
  lemma SliceInFirst<T>(a: seq<T>, b: seq<T>, lo: nat, hi: nat)
    requires lo <= hi <= |a|
    ensures (a + b)[lo..hi] == a[lo..hi]
  {
  }

  /** The slice of a + b that lies wholly inside b. */
  lemma SliceInSecond<T>(a: seq<T>, b: seq<T>, lo: nat, hi: nat)
    requires |a| <= lo <= hi <= |a| + |b|
    ensures (a + b)[lo..hi] == b[lo - |a|..hi - |a|]
  {
  }

  lemma HexBytesBitsCons(tokens: seq<string>)
    requires |tokens| > 0 && HexBytesBits(tokens).Ok?
    ensures HexTokenBits(tokens[0]).Ok? && HexBytesBits(tokens[1..]).Ok?
    ensures HexBytesBits(tokens).value == HexTokenBits(tokens[0]).value + HexBytesBits(tokens[1..]).value
  {
  }

  /** Byte k of the HEX bit list is hexByteToBits of token k. */
  lemma {:induction false} HexBytesBitsChunks(tokens: seq<string>, k: nat)
    requires HexBytesBits(tokens).Ok? && k < |tokens|
    ensures HexBytesBits(tokens).value[8 * k..8 * k + 8] == HexBits.HexByteToBits(tokens[k])
  {
    HexBytesBitsCons(tokens);
    var head := HexTokenBits(tokens[0]).value;
    var rest := HexBytesBits(tokens[1..]).value;
    if k == 0 {
      assert (head + rest)[..8] == head;
    } else {
      HexBytesBitsChunks(tokens[1..], k - 1);
      SliceInSecond(head, rest, 8 * k, 8 * k + 8);
    }
  }

  /** bin(v)[2:].zfill(8): the binary digits of v, zero-filled at the front
      to at least eight. */
  function ZeroFill8(v: nat): (r: seq<Bit>)
    ensures IsBinary(r) && MsbValue(r) == v
    ensures v < 256 ==> |r| == 8
  {
    var digits := BinaryDigits(v);
    BitLengthPow2(v, 8);
    assert Pow2(8) == 256;
    MsbValueLeadingZeros(Max(8 - |digits|, 0), digits);
    Repeat(Zero, Max(8 - |digits|, 0)) + digits
  }

  /** The bits of one ASCII character: MSB first, reversed when the element
      asks for LSB order. */
  function CharBits(c: char, lsbFirst: bool): (r: seq<Bit>)
    ensures IsBinary(r)
    ensures (c as int) < 256 ==> |r| == 8
    ensures BitsToDec(r, false, lsbFirst) == c as int
  {
    var msb := ZeroFill8(c as nat);
    ReverseBinary(msb);
    ReverseReverse(msb);
    if lsbFirst then Reverse(msb) else msb
  }

  /** A Python 2 byte string: every character code below 256. */
  predicate ByteText(text: string) {
    forall k :: 0 <= k < |text| ==> (text[k] as int) < 256
  }

  /** The ASCII element's bit list: each character's bits in text order. */
  function AsciiBits(text: string, lsbFirst: bool): (r: seq<Bit>)
    ensures IsBinary(r)
    ensures ByteText(text) ==> |r| == 8 * |text|
  {
    var pieces := MapSeq((c: char) => CharBits(c, lsbFirst), text);
    ConcatBinary(pieces);
    if ByteText(text) then ConcatLength(pieces); Concat(pieces) else Concat(pieces)
  }

  /** Byte k of the ASCII bit list is the bits of character k, so it reads
      back, in the element's bit order, as that character's code. */
  lemma AsciiBitsChunks(text: string, lsbFirst: bool, k: nat)
    requires ByteText(text) && k < |text|
    ensures AsciiBits(text, lsbFirst)[8 * k..8 * k + 8] == CharBits(text[k], lsbFirst)
    ensures BitsToDec(AsciiBits(text, lsbFirst)[8 * k..8 * k + 8], false, lsbFirst) == text[k] as int
  {
    var pieces := MapSeq((c: char) => CharBits(c, lsbFirst), text);
    ConcatChunk(pieces, k);
  }

  /** A tokenised line of the element file.  NrzAscii's text is its sixth
      token; an NRZ line whose encoding is neither HEX nor ASCII, like any
      unknown line kind, is Ignored. */
  datatype Element =
    | Arb(level: int, widths: seq<int>)
    | NrzHex(lowWidth: int, highWidth: int, byteTokens: seq<string>)
    | NrzAscii(lowWidth: int, highWidth: int, bitOrder: string, text: string)
    | Reg(level: int, lowWidth: int, highWidth: int, pulseCount: int)
    | Ignored

  /** The pulses one element contributes. */
  function ElementPulses(e: Element): (r: Outcome<seq<Pulse>>)
    ensures r.Fails? ==> e.NrzHex?
  {
    match e
    case Arb(level, widths) => Ok(ArbPulses(level, widths))
    case NrzHex(low, high, tokens) =>
      var bits := HexBytesBits(tokens);
      if bits.Fails? then Fails(bits.failure) else Ok(BitPulses(bits.value, low, high))
    case NrzAscii(low, high, order, text) => Ok(BitPulses(AsciiBits(text, order == "LSB"), low, high))
    case Reg(level, low, high, count) => Ok(RegPulses(level, low, high, count))
    case Ignored => Ok([])
  }

  /** The number of pulses an element contributes, from its fields alone. */
  function PulseCount(e: Element): nat {
    match e
    case Arb(_, widths) => |widths|
    case NrzHex(_, _, tokens) => 8 * |tokens|
    case NrzAscii(_, _, _, text) => 8 * |text|
    case Reg(_, _, _, count) => Max(2 * count, 0)
    case Ignored => 0
  }

  predicate Buildable(e: Element) {
    (e.NrzHex? ==> forall k :: 0 <= k < |e.byteTokens| ==> HexToken(e.byteTokens[k])) &&
    (e.NrzAscii? ==> ByteText(e.text))
  }

  lemma ElementPulsesCount(e: Element)
    requires Buildable(e)
    ensures ElementPulses(e).Ok? && |ElementPulses(e).value| == PulseCount(e)
  {
  }

  /** f applied to each entry of s. */
  function MapSeq<A, B>(f: A -> B, s: seq<A>): (r: seq<B>)
    ensures |r| == |s|
    ensures forall k :: 0 <= k < |s| ==> r[k] == f(s[k])
  {
    seq(|s|, k requires 0 <= k < |s| => f(s[k]))
  }

  lemma MapSeqAppend<A, B>(f: A -> B, a: seq<A>, b: seq<A>)
    ensures MapSeq(f, a + b) == MapSeq(f, a) + MapSeq(f, b)
  {
    var l, r := MapSeq(f, a + b), MapSeq(f, a) + MapSeq(f, b);
    forall k | 0 <= k < |l| ensures l[k] == r[k] {
      if k < |a| {
        assert (a + b)[k] == a[k];
      } else {
        assert (a + b)[k] == b[k - |a|];
      }
    }
  }

  /** The elements' contributions, one outcome per element. */
  function Outcomes(elements: seq<Element>): (r: seq<Outcome<seq<Pulse>>>)
    ensures |r| == |elements|
    ensures forall k :: 0 <= k < |elements| ==> r[k] == ElementPulses(elements[k])
  {
    MapSeq(ElementPulses, elements)
  }

  /** The contributions joined in order; the first failure stops the join. */
  function Join(parts: seq<Outcome<seq<Pulse>>>): (r: Outcome<seq<Pulse>>)
    ensures r.Ok? <==> forall k :: 0 <= k < |parts| ==> parts[k].Ok?
  {
    if |parts| == 0 then Ok([])
    else if parts[0].Fails? then parts[0]
    else
      var rest := Join(parts[1..]);
      assert forall k :: 1 <= k < |parts| ==> parts[k] == parts[1..][k - 1];
      if rest.Fails? then rest else Ok(parts[0].value + rest.value)
  }

  /** Joining p + q: the pulses of p followed by those of q, or the first
      failure, looking at p before q. */
  lemma {:induction false} JoinAppend(p: seq<Outcome<seq<Pulse>>>, q: seq<Outcome<seq<Pulse>>>)
    ensures Join(p + q) ==
      if Join(p).Fails? then Join(p)
      else if Join(q).Fails? then Join(q)
      else Ok(Join(p).value + Join(q).value)
  {
    if |p| == 0 {
      assert p + q == q;
      if Join(q).Ok? {
        assert [] + Join(q).value == Join(q).value;
      }
    } else {
      var pq := p + q;
      assert pq[0] == p[0];
      assert pq[1..] == p[1..] + q;
      JoinAppend(p[1..], q);
      if p[0].Ok? && Join(p[1..]).Ok? && Join(q).Ok? {
        var head, mid, tail := p[0].value, Join(p[1..]).value, Join(q).value;
        assert head + (mid + tail) == (head + mid) + tail;
      }
    }
  }

  /** The pulses of a list of elements, in element order; the first failing
      element stops the build. */
  function Pulses(elements: seq<Element>): (r: Outcome<seq<Pulse>>)
    ensures r.Ok? <==> forall k :: 0 <= k < |elements| ==> ElementPulses(elements[k]).Ok?
  {
    Join(Outcomes(elements))
  }

  function TotalPulseCount(elements: seq<Element>): nat {
    if |elements| == 0 then 0 else PulseCount(elements[0]) + TotalPulseCount(elements[1..])
  }

  /** Building a list of buildable elements succeeds, with as many pulses
      as the elements' counts add up to. */
  lemma {:induction false} PulsesLength(elements: seq<Element>)
    requires forall k :: 0 <= k < |elements| ==> Buildable(elements[k])
    ensures Pulses(elements).Ok? && |Pulses(elements).value| == TotalPulseCount(elements)
  {
    if |elements| > 0 {
      ElementPulsesCount(elements[0]);
      assert Outcomes(elements)[1..] == Outcomes(elements[1..]);
      PulsesLength(elements[1..]);
    }
  }

  /** Elements contribute in order: the pulses of a + b are those of a
      followed by those of b, and a failure in a, else in b, is the
      failure of a + b. */
  lemma PulsesAppend(a: seq<Element>, b: seq<Element>)
    ensures Pulses(a + b) ==
      if Pulses(a).Fails? then Pulses(a)
      else if Pulses(b).Fails? then Pulses(b)
      else Ok(Pulses(a).value + Pulses(b).value)
  {
    OutcomesAppend(a, b);
    JoinAppend(Outcomes(a), Outcomes(b));
  }

  lemma OutcomesAppend(a: seq<Element>, b: seq<Element>)
    ensures Outcomes(a + b) == Outcomes(a) + Outcomes(b)
  {
    MapSeqAppend(ElementPulses, a, b);
  }

  /** A single element's pulses are its own contribution. */
  lemma PulsesSingle(e: Element)
    ensures Pulses([e]) == ElementPulses(e)
  {
    var parts := Outcomes([e]);
    assert parts == [ElementPulses(e)];
    assert Join(parts[1..]) == Ok([]);
    if ElementPulses(e).Ok? {
      assert ElementPulses(e).value + [] == ElementPulses(e).value;
    }
  }

  /** One more element: its contribution joins the pulses so far. */
  lemma PulsesExtend(elements: seq<Element>, i: nat)
    requires i < |elements| && Pulses(elements[..i]).Ok?
    ensures var e := ElementPulses(elements[i]);
      Pulses(elements[..i + 1]) == if e.Fails? then e else Ok(Pulses(elements[..i]).value + e.value)
  {
    assert elements[..i + 1] == elements[..i] + [elements[i]];
    PulsesAppend(elements[..i], [elements[i]]);
    PulsesSingle(elements[i]);
  }

  /** A failure among the first i + 1 elements is the failure of the whole
      list. */
  lemma PulsesStopAt(elements: seq<Element>, i: nat)
    requires i < |elements| && Pulses(elements[..i]).Ok? && ElementPulses(elements[i]).Fails?
    ensures Pulses(elements) == ElementPulses(elements[i])
  {
    PulsesExtend(elements, i);
    assert elements == elements[..i + 1] + elements[i + 1..];
    PulsesAppend(elements[..i + 1], elements[i + 1..]);
  }

  /** The parts of basebandDefinition the width list depends on. */
  datatype BasebandDefinition = BasebandDefinition(initialVal: int, elementList: seq<Element>, widthList: seq<Pulse>)

  /** buildWidthList: the width list is rebuilt from the element list alone;
      the old width list and initialVal play no part. */
  function BuildWidthList(d: BasebandDefinition): (r: Outcome<BasebandDefinition>)
    ensures r.Ok? <==> Pulses(d.elementList).Ok?
    ensures r.Ok? ==> r.value.elementList == d.elementList && r.value.initialVal == d.initialVal
    ensures r.Ok? ==> r.value.widthList == Pulses(d.elementList).value
  {
    var pulses := Pulses(d.elementList);
    if pulses.Fails? then Fails(pulses.failure) else Ok(d.(widthList := pulses.value))
  }

  /** Building twice gives the same definition as building once. */
  lemma BuildWidthListIdempotent(d: BasebandDefinition)
    requires BuildWidthList(d).Ok?
    ensures BuildWidthList(BuildWidthList(d).value) == BuildWidthList(d)
  {
  }

  /** The source's loop: append each element's pulses in turn. */
  method BuildWidthListLoop(elements: seq<Element>) returns (r: Outcome<seq<Pulse>>)
    ensures r == Pulses(elements)
  {
    var widthList: seq<Pulse> := [];
    var i := 0;
    while i < |elements|
      invariant i <= |elements|
      invariant Pulses(elements[..i]) == Ok(widthList)
    {
      var pulses := ElementPulses(elements[i]);
      PulsesExtend(elements, i);
      if pulses.Fails? {
        PulsesStopAt(elements, i);
        return pulses;
      }
      widthList := widthList + pulses.value;
      i := i + 1;
    }
    assert elements[..i] == elements;
    return Ok(widthList);
  }
}

=== FILE: binding.dfy ===
/**
 * CrcDefinition and AcsDefinition of crc_custom.py: one CRC or checksum
 * configuration bound to the index ranges of a frame, the data range it
 * covers and the field holding the observed value.  Ranges are inclusive,
 * `frame[start:stop + 1]`.
 */
module Binding {
  import opened BitLists
  import opened CrcEngine
  import opened Checksum

  /** `frame[start:stop + 1]`, for a stop of at least -1. */
  function Inclusive(frame: seq<Bit>, start: nat, stop: int): (r: seq<Bit>)
    requires stop >= -1
    ensures |r| <= |frame|
  {
    Slice(frame, start, stop + 1)
  }

  /** The frame with its positions start .. start + |data| - 1 overwritten
      by data. */
  function Splice(frame: seq<Bit>, start: nat, data: seq<Bit>): (r: seq<Bit>)
    requires start + |data| <= |frame|
    ensures |r| == |frame|
    ensures forall k :: 0 <= k < |frame| && (k < start || start + |data| <= k) ==> r[k] == frame[k]
    ensures forall j :: 0 <= j < |data| ==> r[start + j] == data[j]
  {
    frame[..start] + data + frame[start + |data|..]
  }

  /** The spliced field reads back as the spliced data. */
  lemma SpliceReadsBack(frame: seq<Bit>, start: nat, data: seq<Bit>)
    requires start + |data| <= |frame| && |data| > 0
    ensures Inclusive(Splice(frame, start, data), start, start + |data| - 1) == data
  {
    var s := Inclusive(Splice(frame, start, data), start, start + |data| - 1);
    assert |s| == |data|;
  }

  datatype CrcDefinition = CrcDefinition(
    crcLen: nat,
    params: CrcParams,
    dataStart: nat,
    dataStop: int,
    crcStart: nat,
    crcStop: int)

  predicate CrcRanges(d: CrcDefinition) {
    d.dataStop >= -1 && d.crcStop >= -1
  }

  function CrcDataField(d: CrcDefinition, frame: seq<Bit>): seq<Bit>
    requires CrcRanges(d)
  {
    Inclusive(frame, d.dataStart, d.dataStop)
  }

  /** computeCRC: crcCompute of the data range. */
  function ComputeCRC(d: CrcDefinition, frame: seq<Bit>): (r: seq<Bit>)
    requires CrcRanges(d) && CrcDefined(CrcDataField(d, frame), d.params)
    ensures IsBinary(r)
    ensures d.params.reverseFinal != ReverseBytes && |d.params.crcPoly| >= 2 ==> |r| == |d.params.crcPoly| - 1
  {
    CrcCompute(CrcDataField(d, frame), d.params)
  }

  /** checkCRC: the CRC field holds exactly the CRC of the data range.  A
      field holding an X never matches, since the computed CRC has none. */
  function CheckCRC(d: CrcDefinition, frame: seq<Bit>): (ok: bool)
    requires CrcRanges(d) && CrcDefined(CrcDataField(d, frame), d.params)
    ensures ok ==> IsBinary(Inclusive(frame, d.crcStart, d.crcStop))
    ensures ok <==> Inclusive(frame, d.crcStart, d.crcStop) == ComputeCRC(d, frame)
  {
    Inclusive(frame, d.crcStart, d.crcStop) == ComputeCRC(d, frame)
  }

  /** Frames that agree on the data range have the same CRC. */
  lemma CrcDependsOnDataRange(d: CrcDefinition, f1: seq<Bit>, f2: seq<Bit>)
    requires CrcRanges(d) && |f1| == |f2|
    requires forall k :: d.dataStart <= k <= d.dataStop && k < |f1| ==> f1[k] == f2[k]
    ensures CrcDataField(d, f1) == CrcDataField(d, f2)
  {
  }

  /** A frame built by writing computeCRC into its CRC field checks true,
      provided the field lies inside the frame, has the CRC's length, and
      does not overlap the data range. */
  lemma {:induction false} ComputeThenCheckCRC(d: CrcDefinition, frame: seq<Bit>)
    requires CrcRanges(d) && CrcDefined(CrcDataField(d, frame), d.params)
    requires d.crcStop - d.crcStart + 1 == |ComputeCRC(d, frame)| >= 1 && d.crcStop < |frame|
    requires d.crcStop < d.dataStart || d.dataStop < d.crcStart
    ensures var written := Splice(frame, d.crcStart, ComputeCRC(d, frame));
      CrcDefined(CrcDataField(d, written), d.params) && CheckCRC(d, written)
  {
    var crc := ComputeCRC(d, frame);
    var written := Splice(frame, d.crcStart, crc);
    SpliceReadsBack(frame, d.crcStart, crc);
    CrcDependsOnDataRange(d, frame, written);
  }

  datatype AcsDefinition = AcsDefinition(
    dataStart: nat,
    dataStop: int,
    dataInvert: bool,
    dataReverse: FinalReversal,
    numOutputBits: nat,
    initSum: int,
    acsStart: nat,
    acsStop: int)

  /** computeACS: checksumCompute over the whole frame with the definition's
      range and options. */
  function ComputeACS(a: AcsDefinition, frame: seq<Bit>): (r: int)
    ensures 0 <= r < Pow2(a.numOutputBits)
  {
    ChecksumCompute(frame, a.dataStart, a.dataStop, a.dataInvert, a.dataReverse, a.numOutputBits, a.initSum)
  }

  /** checkACS: bitsToDec of the checksum field equals the computed
      checksum. */
  function CheckACS(a: AcsDefinition, frame: seq<Bit>): (ok: bool)
    requires a.acsStop >= -1
    ensures ok ==> IsBinary(Inclusive(frame, a.acsStart, a.acsStop))
    ensures ok ==> MsbValue(Inclusive(frame, a.acsStart, a.acsStop)) == ComputeACS(a, frame)
    ensures ok <==> (IsBinary(Inclusive(frame, a.acsStart, a.acsStop))
                     && MsbValue(Inclusive(frame, a.acsStart, a.acsStop)) == ComputeACS(a, frame))
  {
    BitsToDec(Inclusive(frame, a.acsStart, a.acsStop), false, false) == ComputeACS(a, frame)
  }

  /** A checksum field holding an X never checks: bitsToDec reads it as -1
      and the computed checksum is non-negative. */
  lemma CheckAcsRejectsUnknown(a: AcsDefinition, frame: seq<Bit>)
    requires a.acsStop >= -1
    requires X in Inclusive(frame, a.acsStart, a.acsStop)
    ensures !CheckACS(a, frame)
  {
  }

  /** The checksum reads only the groups starting before dataStop, so
      nothing at or past dataStop + 7. */
  lemma {:induction false} GroupSumFootprint(f1: seq<Bit>, f2: seq<Bit>, i: nat, stop: int, invert: bool, reverse: bool)
    requires |f1| == |f2|
    requires forall k :: i <= k < stop + 7 && k < |f1| ==> f1[k] == f2[k]
    ensures GroupSum(f1, i, stop, invert, reverse) == GroupSum(f2, i, stop, invert, reverse)
    decreases stop - i
  {
    if i < stop {
      assert Slice(f1, i, i + 8) == Slice(f2, i, i + 8);
      GroupSumFootprint(f1, f2, i + 8, stop, invert, reverse);
    }
  }

  /** Frames that agree from dataStart up to dataStop + 6 have the same
      checksum. */
  lemma AcsFootprint(a: AcsDefinition, f1: seq<Bit>, f2: seq<Bit>)
    requires |f1| == |f2|
    requires forall k :: a.dataStart <= k < a.dataStop + 7 && k < |f1| ==> f1[k] == f2[k]
    ensures ComputeACS(a, f1) == ComputeACS(a, f2)
  {
    var reverse := a.dataReverse == ReverseTrue;
    GroupSumFootprint(f1, f2, a.dataStart, a.dataStop, a.dataInvert, reverse);
  }

  /** A frame built by writing computeACS, in as many bits as the field
      has, into a field clear of the bits the checksum reads, checks true. */
  lemma {:induction false} ComputeThenCheckACS(a: AcsDefinition, frame: seq<Bit>)
    requires a.acsStart <= a.acsStop < |frame|
    requires a.acsStop - a.acsStart + 1 >= a.numOutputBits
    requires a.acsStop < a.dataStart || a.dataStop + 7 <= a.acsStart
    ensures var width := a.acsStop - a.acsStart + 1;
      CheckACS(a, Splice(frame, a.acsStart, DecToPaddedBits(ComputeACS(a, frame), width)))
  {
    var width := a.acsStop - a.acsStart + 1;
    var v := ComputeACS(a, frame);
    Pow2Monotone(a.numOutputBits, width);
    var bits := DecToPaddedBits(v, width);
    assert |bits| == width;
    var written := Splice(frame, a.acsStart, bits);
    SpliceReadsBack(frame, a.acsStart, bits);
    AcsFootprint(a, frame, written);
    assert BitsToDec(Inclusive(written, a.acsStart, a.acsStop), false, false) == v;
  }
}

=== FILE: bitlists.dfy ===
/**
 * Bit lists as bit_list_utilities.py handles them: each element is the
 * integer 0, the integer 1, or the unknown marker LOGIC_X ("X").  This module
 * holds the list primitives (inversion, rotation, byte swap, gather and
 * scatter by index) and the conversions between bit lists and integers.
 */
module BitLists {

  /** One list element: the integers 0 and 1, or the string LOGIC_X. */
  datatype Bit = Zero | One | X

  /** No element is LOGIC_X: every element is an integer bit. */
  predicate IsBinary(s: seq<Bit>) {
    forall i :: 0 <= i < |s| ==> s[i] != X
  }

  /** The integer a bit stands for; an X counts as 0, as a test `bit == 1` does. */
  function BitVal(b: Bit): nat {
    if b == One then 1 else 0
  }

  /** The element for an integer 0 or 1. */
  function BitOf(v: nat): Bit
    requires v < 2
  {
    if v == 1 then One else Zero
  }

  /** Exclusive or in the source's form `(a == 1) ^ (b == 1)`: an X acts as 0. */
  function Xor(a: Bit, b: Bit): Bit {
    if (a == One) != (b == One) then One else Zero
  }

  function Min(a: int, b: int): int {
    if a < b then a else b
  }

  function Max(a: int, b: int): int {
    if a < b then b else a
  }

  function Pow2(n: nat): (r: nat)
    ensures r >= 1
  {
    if n == 0 then 1 else 2 * Pow2(n - 1)
  }

  /** `n * [x]`: n copies of x. */
  function Repeat<T>(x: T, n: nat): (r: seq<T>)
    ensures |r| == n
    ensures forall i :: 0 <= i < n ==> r[i] == x
  {
    seq(n, _ => x)
  }

  /** `s[::-1]`: the list back to front. */
  function Reverse<T>(s: seq<T>): (r: seq<T>)
    ensures |r| == |s|
    ensures forall i :: 0 <= i < |s| ==> r[i] == s[|s| - 1 - i]
  {
    if |s| == 0 then [] else [s[|s| - 1]] + Reverse(s[..|s| - 1])
  }

  lemma ReverseReverse<T>(s: seq<T>)
    ensures Reverse(Reverse(s)) == s
  {
  }

  lemma ReverseBinary(s: seq<Bit>)
    ensures IsBinary(Reverse(s)) <==> IsBinary(s)
  {
    var r := Reverse(s);
    if IsBinary(s) {
      forall i | 0 <= i < |r| ensures r[i] != X {
        assert r[i] == s[|s| - 1 - i];
      }
    }
    if IsBinary(r) {
      forall i | 0 <= i < |s| ensures s[i] != X {
        assert r[|s| - 1 - i] == s[i];
      }
    }
  }

  /** Python's `s[lo:hi]` for non-negative bounds: both ends are clamped to
      the list, and a range with lo >= hi is empty. */
  function Slice<T>(s: seq<T>, lo: nat, hi: nat): (r: seq<T>)
    ensures |r| == (if lo < hi && lo < |s| then Min(hi, |s|) - lo else 0)
    ensures forall k :: 0 <= k < |r| ==> r[k] == s[lo + k]
  {
    if lo < hi && lo < |s| then s[lo..Min(hi, |s|)] else []
  }

  // ---------------------------------------------------------------------
  // Inversion, rotation and byte swap

  /** invertBit: 1 becomes 0, 0 becomes 1, anything else becomes X. */
  function InvertBit(b: Bit): (r: Bit)
    ensures b != X ==> r != X && r != b
    ensures b == X ==> r == X
  {
    match b
    case One => Zero
    case Zero => One
    case X => X
  }

  lemma InvertBitInvolution(b: Bit)
    ensures InvertBit(InvertBit(b)) == b
  {
  }

  /** invertBitList: each 0 becomes 1 and every other element, X included,
      becomes 0.  It agrees with invertBit on integer bits only. */
  function InvertBitList(s: seq<Bit>): (r: seq<Bit>)
    ensures |r| == |s| && IsBinary(r)
    ensures forall i :: 0 <= i < |s| && s[i] != X ==> r[i] == InvertBit(s[i])
    ensures forall i :: 0 <= i < |s| && s[i] == X ==> r[i] == Zero
  {
    if |s| == 0 then [] else [if s[0] == Zero then One else Zero] + InvertBitList(s[1..])
  }

  lemma InvertBitListInvolution(s: seq<Bit>)
    requires IsBinary(s)
    ensures InvertBitList(InvertBitList(s)) == s
  {
  }

  /** The remainder of a Euclidean division is determined by any quotient
      and remainder that reconstruct the dividend. */
  lemma ModUnique(a: int, m: int, q: int, r: int)
    requires m > 0 && a == q * m + r && 0 <= r < m
    ensures a % m == r
  {
    var d := q - a / m;
    assert d * m == a % m - r;
    if d >= 1 {
      MulAtLeast(d, m);
    } else if d <= -1 {
      assert (-d) * m == r - a % m;
      MulAtLeast(-d, m);
    }
  }

  lemma {:induction false} MulAtLeast(d: int, m: int)
    requires d >= 1 && m > 0
    ensures d * m >= m
  {
    if d > 1 {
      MulAtLeast(d - 1, m);
      assert d * m == (d - 1) * m + m;
    }
  }

  /** Where element k of a right rotation by n comes from, in slice terms. */
  lemma RotateIndex(len: nat, n: int, k: nat)
    requires 0 <= k < len
    ensures k < n % len ==> (k - n) % len == k - n % len + len
    ensures k >= n % len ==> (k - n) % len == k - n % len
  {
    var m, q := n % len, n / len;
    if k < m {
      ModUnique(k - n, len, -(q + 1), k - m + len);
    } else {
      ModUnique(k - n, len, -q, k - m);
    }
  }

  /** deque.rotate(n): a right rotation by n places (a left one for n < 0). */
  function RotateRight(s: seq<Bit>, n: int): (r: seq<Bit>)
    ensures |r| == |s|
    ensures forall k :: 0 <= k < |s| ==> r[k] == s[(k - n) % |s|]
  {
    if |s| == 0 then s
    else
      var m := n % |s|;
      var r := s[|s| - m..] + s[..|s| - m];
      assert forall k :: 0 <= k < |s| ==> r[k] == s[(k - n) % |s|] by {
        forall k | 0 <= k < |s| ensures r[k] == s[(k - n) % |s|] {
          RotateIndex(|s|, n, k);
        }
      }
      r
  }

  /** rotateBitList: with invert set, the right rotation with every element
      inverted as invertBitList does; with invert clear the source builds no
      output and returns the empty list. */
  function RotateBitList(bits: seq<Bit>, rotate: int, invert: bool): (r: seq<Bit>)
    ensures !invert ==> r == []
    ensures invert ==> |r| == |bits|
    ensures invert ==> forall k :: 0 <= k < |bits| ==>
      r[k] == (if bits[(k - rotate) % |bits|] == Zero then One else Zero)
  {
    if invert then InvertBitList(RotateRight(bits, rotate)) else []
  }

  /** A right rotation by n is undone by a rotation by -n. */
  lemma RotateRightInverse(s: seq<Bit>, n: int)
    ensures RotateRight(RotateRight(s, n), -n) == s
  {
    var len := |s|;
    var r1 := RotateRight(s, n);
    var r2 := RotateRight(r1, -n);
    forall k | 0 <= k < len ensures r2[k] == s[k] {
      var j := (k + n) % len;
      assert k - -n == k + n;
      ModUnique(j - n, len, -((k + n) / len), k);
    }
  }

  lemma RotateInvertCommute(s: seq<Bit>, n: int)
    ensures RotateRight(InvertBitList(s), n) == InvertBitList(RotateRight(s, n))
  {
  }

  /** Rotating back by the same amount undoes a rotation, and inverting twice
      undoes the inversion on integer bits. */
  lemma RotateBitListInverse(bits: seq<Bit>, n: int)
    requires IsBinary(bits)
    ensures RotateBitList(RotateBitList(bits, n, true), -n, true) == bits
  {
    var r := RotateRight(bits, n);
    RotateInvertCommute(r, -n);
    RotateRightInverse(bits, n);
    InvertBitListInvolution(RotateRight(r, -n));
  }

  /** byteReverse: a 16-element list has its two 8-element halves swapped;
      any other length gives 16 unknowns. */
  function ByteReverse(bits: seq<Bit>): (r: seq<Bit>)
    ensures |r| == 16
    ensures |bits| == 16 ==> forall k :: 0 <= k < 16 ==> r[k] == bits[(k + 8) % 16]
    ensures |bits| != 16 ==> r == Repeat(X, 16)
  {
    if |bits| != 16 then Repeat(X, 16) else bits[8..16] + bits[0..8]
  }

  lemma ByteReverseInvolution(bits: seq<Bit>)
    requires |bits| == 16
    ensures ByteReverse(ByteReverse(bits)) == bits
  {
  }

  // ---------------------------------------------------------------------
  // Gather and scatter by index

  /** extractDisjointedBits: element k is target[indexList[k]], or X when
      that index lies past the end of the target. */
  function ExtractDisjointedBits(target: seq<Bit>, indexList: seq<nat>): (r: seq<Bit>)
    ensures |r| == |indexList|
    ensures forall k :: 0 <= k < |indexList| ==>
      r[k] == (if indexList[k] < |target| then target[indexList[k]] else X)
  {
    if |indexList| == 0 then []
    else
      [if indexList[0] < |target| then target[indexList[0]] else X]
        + ExtractDisjointedBits(target, indexList[1..])
  }

  /** No later entry of the index list names the same position as entry j. */
  predicate LastWrite(indexList: seq<nat>, j: nat) {
    forall j' :: j < j' < |indexList| ==> indexList[j'] != indexList[j]
  }

  predicate Distinct(indexList: seq<nat>) {
    forall i, j :: 0 <= i < j < |indexList| ==> indexList[i] != indexList[j]
  }

  /** The writes of the zip loop in writeDisjointBits, in list order: every
      listed position ends with the value paired with its last occurrence. */
  function Scatter(target: seq<Bit>, newData: seq<Bit>, indexList: seq<nat>): (r: seq<Bit>)
    requires |newData| == |indexList|
    requires forall j :: 0 <= j < |indexList| ==> indexList[j] < |target|
    ensures |r| == |target|
    ensures forall k :: 0 <= k < |target| && k !in indexList ==> r[k] == target[k]
    ensures forall j :: 0 <= j < |indexList| && LastWrite(indexList, j) ==> r[indexList[j]] == newData[j]
    decreases |indexList|
  {
    if |indexList| == 0 then target
    else
      var r := Scatter(target[indexList[0] := newData[0]], newData[1..], indexList[1..]);
      assert forall j :: 1 <= j < |indexList| && LastWrite(indexList, j) ==> LastWrite(indexList[1..], j - 1);
      r
  }

  /** The largest entry of a non-empty list: Python's max(). */
  function SeqMax(s: seq<nat>): (m: nat)
    requires |s| > 0
    ensures m in s
    ensures forall j :: 0 <= j < |s| ==> s[j] <= m
  {
    if |s| == 1 then s[0] else Max(s[0], SeqMax(s[1..]))
  }

  /** Why writeDisjointBits wrote nothing: differing list lengths (the source
      exits the process), an index past the end (it returns 0), or an empty
      index list (max() of an empty list raises). */
  datatype WriteError = LengthMismatch | IndexOutOfRange | EmptyIndexList

  datatype WriteResult = Written(target: seq<Bit>) | Failed(error: WriteError)

  /** writeDisjointBits as a value: either every write is applied or none is. */
  function WriteDisjointBits(target: seq<Bit>, newData: seq<Bit>, indexList: seq<nat>): (r: WriteResult)
    ensures r == Failed(LengthMismatch) <==> |newData| != |indexList|
    ensures r == Failed(EmptyIndexList) <==> |newData| == |indexList| == 0
    ensures r == Failed(IndexOutOfRange) <==>
      |newData| == |indexList| > 0 && exists j :: 0 <= j < |indexList| && indexList[j] >= |target|
    ensures r.Written? ==> |r.target| == |target|
    ensures r.Written? ==> forall k :: 0 <= k < |target| && k !in indexList ==> r.target[k] == target[k]
    ensures r.Written? ==> forall j :: 0 <= j < |indexList| && LastWrite(indexList, j) ==>
      r.target[indexList[j]] == newData[j]
  {
    if |newData| != |indexList| then Failed(LengthMismatch)
    else if |indexList| == 0 then Failed(EmptyIndexList)
    else if SeqMax(indexList) >= |target| then Failed(IndexOutOfRange)
    else Written(Scatter(target, newData, indexList))
  }

  datatype WriteStatus = Done | Rejected(error: WriteError)

  /** writeDisjointBits on a caller-owned buffer: the checks run before any
      write, so a rejected call leaves the buffer as it was. */
  method WriteDisjointBitsInPlace(target: array<Bit>, newData: seq<Bit>, indexList: seq<nat>)
    returns (status: WriteStatus)
    modifies target
    ensures status == Done ==> WriteDisjointBits(old(target[..]), newData, indexList) == Written(target[..])
    ensures status.Rejected? ==> target[..] == old(target[..])
    ensures status.Rejected? ==> WriteDisjointBits(old(target[..]), newData, indexList) == Failed(status.error)
  {
    if |newData| != |indexList| {
      return Rejected(LengthMismatch);
    }
    if |indexList| == 0 {
      return Rejected(EmptyIndexList);
    }
    var i := 0;
    while i < |indexList|
      invariant 0 <= i <= |indexList|
      invariant forall j :: 0 <= j < i ==> indexList[j] < target.Length
    {
      if indexList[i] >= target.Length {
        return Rejected(IndexOutOfRange);
      }
      i := i + 1;
    }
    ghost var original := target[..];
    i := 0;
    while i < |indexList|
      invariant 0 <= i <= |indexList|
      invariant Scatter(target[..], newData[i..], indexList[i..]) == Scatter(original, newData, indexList)
    {
      assert target[..][indexList[i] := newData[i]] == target[..][indexList[i] := newData[i]];
      target[indexList[i]] := newData[i];
      i := i + 1;
    }
    return Done;
  }

  /** Reading back the written positions returns the written values. */
  lemma ExtractAfterWrite(target: seq<Bit>, newData: seq<Bit>, indexList: seq<nat>)
    requires |newData| == |indexList| > 0
    requires forall j :: 0 <= j < |indexList| ==> indexList[j] < |target|
    requires Distinct(indexList)
    ensures WriteDisjointBits(target, newData, indexList).Written?
    ensures ExtractDisjointedBits(WriteDisjointBits(target, newData, indexList).target, indexList) == newData
  {
    var w := WriteDisjointBits(target, newData, indexList);
    assert w.Written?;
    var e := ExtractDisjointedBits(w.target, indexList);
    forall k | 0 <= k < |indexList| ensures e[k] == newData[k] {
      assert LastWrite(indexList, k);
    }
  }

  // ---------------------------------------------------------------------
  // Integers

  /** The MSB-first value of a list: the source's loop
      `value = (value << 1) | bit` over integer bits. */
  function MsbValue(s: seq<Bit>): (v: nat)
    ensures v < Pow2(|s|)
  {
    if |s| == 0 then 0 else 2 * MsbValue(s[..|s| - 1]) + BitVal(s[|s| - 1])
  }

  /** The LSB-first value of a list: element 0 is the least significant
      bit.  Defined independently of MsbValue and Reverse. */
  function LsbValue(s: seq<Bit>): nat {
    if |s| == 0 then 0 else BitVal(s[0]) + 2 * LsbValue(s[1..])
  }

  /** Reading the reversed list MSB first is reading the list LSB first. */
  lemma {:induction false} MsbValueReverse(s: seq<Bit>)
    ensures MsbValue(Reverse(s)) == LsbValue(s)
    decreases |s|
  {
    if |s| > 0 {
      var r := Reverse(s);
      assert r[..|r| - 1] == Reverse(s[1..]);
      MsbValueReverse(s[1..]);
    }
  }

  lemma ReverseInvertCommute(s: seq<Bit>)
    ensures Reverse(InvertBitList(s)) == InvertBitList(Reverse(s))
  {
  }

  /** bitsToDec: inversion first (0 -> 1, anything else -> 0), then LSB-first
      order when reverse is set, then the MSB-first value, or -1 as soon as an
      element is not an integer. */
  function BitsToDec(bits: seq<Bit>, invert: bool, reverse: bool): (v: int)
    ensures v == -1 <==> !invert && !IsBinary(bits)
    ensures v != -1 ==> 0 <= v < Pow2(|bits|)
    ensures IsBinary(bits) && !reverse ==> v == (if invert then Pow2(|bits|) - 1 - MsbValue(bits) else MsbValue(bits))
    ensures IsBinary(bits) && reverse ==> v == (if invert then Pow2(|bits|) - 1 - LsbValue(bits) else LsbValue(bits))
    ensures invert ==> v == (if reverse then LsbValue(InvertBitList(bits)) else MsbValue(InvertBitList(bits)))
  {
    var b2 := if invert then InvertBitList(bits) else bits;
    var b3 := if reverse then Reverse(b2) else b2;
    ReverseBinary(b2);
    MsbValueInvert(bits);
    MsbValueReverse(bits);
    ReverseInvertCommute(bits);
    MsbValueInvert(Reverse(bits));
    ReverseBinary(bits);
    MsbValueReverse(InvertBitList(bits));
    if IsBinary(b3) then MsbValue(b3) else -1
  }

  /** With reverse, a binary list reads as its reversal read without it,
      inverted or not. */
  lemma BitsToDecReverse(bits: seq<Bit>, invert: bool)
    requires IsBinary(bits)
    ensures BitsToDec(bits, invert, true) == BitsToDec(Reverse(bits), invert, false)
  {
    ReverseBinary(bits);
    MsbValueReverse(bits);
  }

  /** The value of the inverted list is the one's complement. */
  lemma {:induction false} MsbValueInvert(s: seq<Bit>)
    ensures IsBinary(s) ==> MsbValue(InvertBitList(s)) == Pow2(|s|) - 1 - MsbValue(s)
  {
    if |s| > 0 && IsBinary(s) {
      var p := s[..|s| - 1];
      MsbValueInvert(p);
      assert InvertBitList(s)[..|s| - 1] == InvertBitList(p);
    }
  }

  /** Python's int.bit_length() on a non-negative integer. */
  function BitLength(v: nat): nat {
    if v == 0 then 0 else 1 + BitLength(v / 2)
  }

  lemma {:induction false} BitLengthPow2(v: nat, n: nat)
    ensures BitLength(v) <= n <==> v < Pow2(n)
  {
    if n > 0 && v > 0 {
      BitLengthPow2(v / 2, n - 1);
    }
  }

  /** The digits of bin(v)[2:] as a bit list: the shortest binary form of v,
      which is "0" for zero. */
  function BinaryDigits(v: nat): (r: seq<Bit>)
    ensures IsBinary(r) && |r| == Max(BitLength(v), 1) && MsbValue(r) == v
  {
    if v < 2 then [BitOf(v)]
    else
      var p := BinaryDigits(v / 2);
      assert (p + [BitOf(v % 2)])[..|p|] == p;
      p + [BitOf(v % 2)]
  }

  lemma {:induction false} MsbValueLeadingZeros(z: nat, s: seq<Bit>)
    ensures MsbValue(Repeat(Zero, z) + s) == MsbValue(s)
    decreases |s|, z
  {
    var t := Repeat(Zero, z) + s;
    if |s| > 0 {
      assert t[..|t| - 1] == Repeat(Zero, z) + s[..|s| - 1];
      MsbValueLeadingZeros(z, s[..|s| - 1]);
    } else if z > 0 {
      assert t[..|t| - 1] == Repeat(Zero, z - 1) + s;
      MsbValueLeadingZeros(z - 1, s);
    }
  }

  /** decToPaddedBits: v in numBits bits, MSB first, zero-filled at the front;
      numBits unknowns when v does not fit.  Zero in zero bits is the list [0],
      since bin(0) has one digit and a negative pad count adds nothing. */
  function DecToPaddedBits(v: nat, numBits: nat): (r: seq<Bit>)
    ensures v >= Pow2(numBits) ==> r == Repeat(X, numBits)
    ensures v < Pow2(numBits) ==> IsBinary(r) && |r| == Max(numBits, 1)
    ensures v < Pow2(numBits) ==> BitsToDec(r, false, false) == v
  {
    BitLengthPow2(v, numBits);
    if BitLength(v) > numBits then Repeat(X, numBits)
    else
      var digits := BinaryDigits(v);
      var padCount := if |digits| <= numBits then numBits - |digits| else 0;
      MsbValueLeadingZeros(padCount, digits);
      Repeat(Zero, padCount) + digits
  }

  lemma {:induction false} MsbValueInjective(a: seq<Bit>, b: seq<Bit>)
    requires IsBinary(a) && IsBinary(b) && |a| == |b|
    requires MsbValue(a) == MsbValue(b)
    ensures a == b
  {
    if |a| > 0 {
      var n := |a| - 1;
      assert BitVal(a[n]) == BitVal(b[n]);
      MsbValueInjective(a[..n], b[..n]);
      assert a == a[..n] + [a[n]] && b == b[..n] + [b[n]];
    }
  }

  /** Reading a list of integer bits and writing the value back in as many
      bits reproduces the list. */
  lemma BitsToDecRoundTrip(bits: seq<Bit>)
    requires IsBinary(bits) && |bits| >= 1
    ensures DecToPaddedBits(BitsToDec(bits, false, false), |bits|) == bits
  {
    var v := BitsToDec(bits, false, false);
    MsbValueInjective(DecToPaddedBits(v, |bits|), bits);
  }

  /** Writing a value into n bits and reading it back gives the value. */
  lemma DecToPaddedBitsRoundTrip(v: nat, n: nat)
    requires v < Pow2(n)
    ensures BitsToDec(DecToPaddedBits(v, n), false, false) == v
  {
  }

  // ---------------------------------------------------------------------
  // Bytes

  predicate AllNonNegative(s: seq<int>) {
    forall m :: 0 <= m < |s| ==> s[m] >= 0
  }

  predicate AllBytes(s: seq<int>) {
    forall m :: 0 <= m < |s| ==> 0 <= s[m] < 256
  }

  /** byteListToBits: eight bits per byte, MSB first (eight X for a value
      above 255). */
  function ByteListToBits(bytes: seq<int>): (r: seq<Bit>)
    requires AllNonNegative(bytes)
    ensures |r| == 8 * |bytes|
    ensures AllBytes(bytes) ==> IsBinary(r)
  {
    if |bytes| == 0 then []
    else
      assert Pow2(8) == 256;
      DecToPaddedBits(bytes[0], 8) + ByteListToBits(bytes[1..])
  }

  /** bit_list_to_byte_list: the value of each slice bits[i:i+8], i stepping
      by 8; a short last group is read as it is, and a group holding an X
      reads as -1. */
  function BitListToByteList(bits: seq<Bit>): (r: seq<int>)
    ensures |r| == (|bits| + 7) / 8
    ensures forall m :: 0 <= m < |r| ==> -1 <= r[m] < 256
    ensures IsBinary(bits) ==> AllNonNegative(r)
  {
    if |bits| == 0 then []
    else
      var group := Slice(bits, 0, 8);
      assert IsBinary(bits) ==> IsBinary(group);
      assert Pow2(|group|) <= 256 by {
        if |group| < 8 { Pow2Monotone(|group|, 8); }
      }
      [BitsToDec(group, false, false)] + BitListToByteList(bits[Min(8, |bits|)..])
  }

  lemma {:induction false} Pow2Monotone(a: nat, b: nat)
    requires a <= b
    ensures Pow2(a) <= Pow2(b)
    decreases b
  {
    if a < b {
      Pow2Monotone(a, b - 1);
    }
  }

  lemma {:induction false} ByteListRoundTrip(bytes: seq<int>)
    requires AllBytes(bytes)
    ensures BitListToByteList(ByteListToBits(bytes)) == bytes
  {
    if |bytes| > 0 {
      var bits := ByteListToBits(bytes);
      assert Pow2(8) == 256;
      assert bits[..8] == DecToPaddedBits(bytes[0], 8);
      assert bits[8..] == ByteListToBits(bytes[1..]);
      ByteListRoundTrip(bytes[1..]);
    }
  }

  lemma {:induction false} BitListRoundTrip(bits: seq<Bit>)
    requires IsBinary(bits) && |bits| % 8 == 0
    ensures ByteListToBits(BitListToByteList(bits)) == bits
  {
    if |bits| > 0 {
      var head, tail := bits[..8], bits[8..];
      assert |tail| % 8 == 0 by {
        assert |bits| == |tail| + 8;
      }
      assert Slice(bits, 0, 8) == head;
      assert IsBinary(head) && IsBinary(tail);
      var bytes := BitListToByteList(bits);
      assert bytes == [BitsToDec(head, false, false)] + BitListToByteList(tail);
      BitsToDecRoundTrip(head);
      BitListRoundTrip(tail);
      assert ByteListToBits(bytes) == DecToPaddedBits(bytes[0], 8) + ByteListToBits(bytes[1..]);
      assert bytes[1..] == BitListToByteList(tail);
      assert bits == head + tail;
    }
  }
}

=== FILE: checksum.dfy ===
/**
 * checksumCompute of crc_custom.py: the arithmetic checksum, a sum of the
 * 8-bit groups of a bit list, each read with bitsToDec, reduced modulo
 * 2^numOutputBits.
 */
module Checksum {
  import opened BitLists
  import opened CrcEngine

  /** The loop over `range(i, dataStop, 8)`: the sum of bitsToDec over the
      groups `dataList[i:i+8]`.  A group holding an X adds -1. */
  function GroupSum(data: seq<Bit>, i: nat, dataStop: int, invert: bool, reverse: bool): int
    decreases dataStop - i
  {
    if i >= dataStop then 0
    else BitsToDec(Slice(data, i, i + 8), invert, reverse) + GroupSum(data, i + 8, dataStop, invert, reverse)
  }

  /** The running sum reduced modulo 2^numOutputBits.  Python's % with a
      positive modulus is the floor remainder, which Dafny's % also gives. */
  function Reduce(sum: int, numOutputBits: nat): (r: int)
    ensures 0 <= r < Pow2(numOutputBits)
  {
    sum % Pow2(numOutputBits)
  }

  /** checksumCompute.  Only CRC_REVERSE_TRUE reads the groups LSB first;
      CRC_REVERSE_BYTES is read like CRC_REVERSE_FALSE (the source only
      warns that the byte swap is missing). */
  function ChecksumCompute(data: seq<Bit>, dataStart: nat, dataStop: int, dataInvert: bool,
                           dataReverse: FinalReversal, numOutputBits: nat, initSum: int): (r: int)
    ensures 0 <= r < Pow2(numOutputBits)
  {
    Reduce(initSum + GroupSum(data, dataStart, dataStop, dataInvert, dataReverse == ReverseTrue), numOutputBits)
  }

  /** The loop as the source writes it: the running sum, then the
      reduction. */
  method ChecksumLoop(data: seq<Bit>, dataStart: nat, dataStop: int, dataInvert: bool,
                      dataReverse: FinalReversal, numOutputBits: nat, initSum: int) returns (r: int)
    ensures r == ChecksumCompute(data, dataStart, dataStop, dataInvert, dataReverse, numOutputBits, initSum)
  {
    var sum := SumGroups(data, dataStart, dataStop, dataInvert, dataReverse == ReverseTrue, initSum);
    var modVal := Pow2(numOutputBits);
    r := sum % modVal;
  }

  /** The accumulation loop `for i in range(dataStart, dataStop, 8)`. */
  method SumGroups(data: seq<Bit>, dataStart: nat, dataStop: int, invert: bool, reverse: bool, initSum: int)
    returns (sum: int)
    ensures sum == initSum + GroupSum(data, dataStart, dataStop, invert, reverse)
  {
    sum := initSum;
    var i := dataStart;
    while i < dataStop
      invariant sum + GroupSum(data, i, dataStop, invert, reverse)
        == initSum + GroupSum(data, dataStart, dataStop, invert, reverse)
      decreases dataStop - i
    {
      var group := BitsToDec(Slice(data, i, i + 8), invert, reverse);
      assert GroupSum(data, i, dataStop, invert, reverse) == group + GroupSum(data, i + 8, dataStop, invert, reverse);
      sum := sum + group;
      i := i + 8;
    }
    assert GroupSum(data, i, dataStop, invert, reverse) == 0;
  }

  /** CRC_REVERSE_BYTES gives the same checksum as CRC_REVERSE_FALSE. */
  lemma ByteSwapOptionIsIgnored(data: seq<Bit>, dataStart: nat, dataStop: int, dataInvert: bool,
                                numOutputBits: nat, initSum: int)
    ensures ChecksumCompute(data, dataStart, dataStop, dataInvert, ReverseBytes, numOutputBits, initSum)
      == ChecksumCompute(data, dataStart, dataStop, dataInvert, ReverseFalse, numOutputBits, initSum)
  {
  }

  /** A byte as the checksum adds it: its one's complement when inverting. */
  function ByteTerm(b: int, invert: bool): int {
    if invert then 255 - b else b
  }

  function SumByteTerms(bytes: seq<int>, invert: bool): int {
    if |bytes| == 0 then 0 else ByteTerm(bytes[0], invert) + SumByteTerms(bytes[1..], invert)
  }

  /** Group a of a whole-byte list is the first byte that
      bit_list_to_byte_list reads from position 8a on. */
  lemma GroupIsByte(data: seq<Bit>, a: nat, m: nat, invert: bool)
    requires IsBinary(data) && |data| == 8 * m && a < m
    ensures var bytes := BitListToByteList(data[8 * a..]);
      |bytes| > 0
      && BitsToDec(Slice(data, 8 * a, 8 * a + 8), invert, false) == ByteTerm(bytes[0], invert)
      && bytes[1..] == BitListToByteList(data[8 * (a + 1)..])
  {
    var rest := data[8 * a..];
    var group := Slice(data, 8 * a, 8 * a + 8);
    assert group == Slice(rest, 0, 8);
    assert IsBinary(group) && |group| == 8;
    assert Pow2(8) == 256;
    assert rest[Min(8, |rest|)..] == data[8 * (a + 1)..];
  }

  /** Over whole bytes, the group sum is the sum of the bytes that
      bit_list_to_byte_list reads, complemented when inverting. */
  lemma {:induction false} GroupSumIsByteSum(data: seq<Bit>, a: nat, m: nat, invert: bool)
    requires IsBinary(data) && |data| == 8 * m && a <= m
    ensures GroupSum(data, 8 * a, 8 * m, invert, false) == SumByteTerms(BitListToByteList(data[8 * a..]), invert)
    decreases m - a
  {
    if a < m {
      GroupIsByte(data, a, m, invert);
      GroupSumIsByteSum(data, a + 1, m, invert);
      assert 8 * (a + 1) == 8 * a + 8;
    }
  }

  lemma {:induction false} ByteListGroupSum(bytes: seq<int>, invert: bool)
    requires AllBytes(bytes)
    ensures GroupSum(ByteListToBits(bytes), 0, 8 * |bytes| - 1, invert, false) == SumByteTerms(bytes, invert)
  {
    var bits := ByteListToBits(bytes);
    if |bytes| > 0 {
      GroupSumStopInsideByte(bits, 0, |bytes|, invert, false);
      GroupSumIsByteSum(bits, 0, |bytes|, invert);
      ByteListRoundTrip(bytes);
      assert bits[0..] == bits;
    }
  }

  /** The checksum of a whole-byte frame over its full range, dataStop
      being the last bit's index, is the sum of the frame's bytes (their
      complements when inverting) plus initSum, reduced modulo
      2^numOutputBits. */
  lemma ChecksumIsByteSum(data: seq<Bit>, m: nat, invert: bool, numOutputBits: nat, initSum: int)
    requires IsBinary(data) && |data| == 8 * m && m >= 1
    ensures ChecksumCompute(data, 0, 8 * m - 1, invert, ReverseFalse, numOutputBits, initSum)
      == (initSum + SumByteTerms(BitListToByteList(data), invert)) % Pow2(numOutputBits)
  {
    GroupSumStopInsideByte(data, 0, m, invert, false);
    GroupSumIsByteSum(data, 0, m, invert);
    assert data[8 * 0..] == data;
  }

  /** Groups start at multiples of 8 from a byte-aligned start, so moving
      the stop within the last byte selects the same groups. */
  lemma {:induction false} GroupSumStopInsideByte(data: seq<Bit>, a: nat, b: nat, invert: bool, reverse: bool)
    requires b >= 1
    ensures GroupSum(data, 8 * a, 8 * b - 1, invert, reverse) == GroupSum(data, 8 * a, 8 * b, invert, reverse)
    decreases b - a
  {
    var i, stop := 8 * a, 8 * b;
    if a < b {
      assert i < stop - 1;
      GroupSumStopInsideByte(data, a + 1, b, invert, reverse);
      assert 8 * (a + 1) == i + 8;
    } else {
      assert i >= stop;
    }
  }
}

=== FILE: crc.dfy ===
/**
 * crcCompute of crc_custom.py: a configurable CRC computed by mod-2 long
 * division over a bit list.  The steps run in a fixed order: pad, reorder
 * the input bits, append the tail bits set to the initial value, divide over
 * the payload's length before padding, take the remainder, apply the final
 * reversal, and XOR with the final mask.
 */
module CrcEngine {
  import opened BitLists

  /** Input bit order: CRC_NORM (0), CRC_REVERSE (1) or CRC_REFLECT (2). */
  datatype BitOrder = CrcNorm | CrcReverse | CrcReflect {
    function Code(): int {
      match this
      case CrcNorm => 0
      case CrcReverse => 1
      case CrcReflect => 2
    }
  }

  /** Final reversal: CRC_REVERSE_FALSE (0), CRC_REVERSE_TRUE (1) or
      CRC_REVERSE_BYTES (2). */
  datatype FinalReversal = ReverseFalse | ReverseTrue | ReverseBytes {
    function Code(): int {
      match this
      case ReverseFalse => 0
      case ReverseTrue => 1
      case ReverseBytes => 2
    }
  }

  /** Padding: CRC_NOPAD (0), CRC_PAD_TO_EVEN (1) or CRC_PAD_ABS (2). */
  datatype PadType = NoPad | PadToEven | PadAbs {
    function Code(): int {
      match this
      case NoPad => 0
      case PadToEven => 1
      case PadAbs => 2
    }
  }

  /** How crcCompute dispatches on an integer bit-order code: 2 reflects, 1
      reverses, and every other value processes the bits as they are. */
  function BitOrderOfCode(code: int): (o: BitOrder)
    ensures o == CrcReflect <==> code == 2
    ensures o == CrcReverse <==> code == 1
    ensures o.Code() == code || (o == CrcNorm && code != 1 && code != 2)
  {
    if code == 2 then CrcReflect else if code == 1 then CrcReverse else CrcNorm
  }

  /** How crcCompute dispatches on an integer pad code: 2 pads by a fixed
      count, 1 pads "to even", every other value adds nothing. */
  function PadTypeOfCode(code: int): (t: PadType)
    ensures t == PadAbs <==> code == 2
    ensures t == PadToEven <==> code == 1
    ensures t.Code() == code || (t == NoPad && code != 1 && code != 2)
  {
    if code == 2 then PadAbs else if code == 1 then PadToEven else NoPad
  }

  /** The final reversal codes crcCompute accepts; any other code leaves its
      output unbound, so only these three are modelled. */
  function FinalReversalOfCode(code: int): (f: FinalReversal)
    requires 0 <= code <= 2
    ensures f.Code() == code
  {
    if code == 0 then ReverseFalse else if code == 1 then ReverseTrue else ReverseBytes
  }

  /** One CRC variant, the parameters crcCompute takes besides the payload. */
  datatype CrcParams = CrcParams(
    crcPoly: seq<Bit>,
    inputBitOrder: BitOrder,
    initVal: Bit,
    reverseFinal: FinalReversal,
    finalXOR: seq<Bit>,
    padType: PadType,
    padCount: int,
    padVal: Bit)

  /** What crcCompute demands of its parameters: 0/1 polynomial, initial
      value and pad value, the operands of its modular addition.  The length
      the final mask needs depends on the payload; see CrcDefined. */
  predicate ValidParams(p: CrcParams) {
    && IsBinary(p.crcPoly)
    && p.initVal != X
    && p.padVal != X
  }

  /** `range(len(crcPoly) - 1)`: the number of tail bits, none for an
      empty polynomial. */
  function TailLen(p: CrcParams): nat {
    if |p.crcPoly| >= 1 then |p.crcPoly| - 1 else 0
  }

  /** Python's `s[start:]` for an integer start: a negative start counts
      from the end, and both are clamped to the list. */
  function PySuffix<T>(s: seq<T>, start: int): (r: seq<T>)
    ensures start < 0 ==> |r| == Min(-start, |s|) && r == s[|s| - |r|..]
    ensures start >= 0 ==> |r| == Max(|s| - start, 0) && r == s[|s| - |r|..]
  {
    if start < 0 then s[Max(|s| + start, 0)..] else s[Min(start, |s|)..]
  }

  // ---------------------------------------------------------------------
  // Step 1: padding

  /** The loop `for i in range(n): s.append(v)`: no copies when n <= 0. */
  function AppendCopies(s: seq<Bit>, v: Bit, n: int): (r: seq<Bit>)
    ensures r == s + Repeat(v, Max(n, 0))
    decreases Max(n, 0)
  {
    if n <= 0 then s
    else
      var r := AppendCopies(s + [v], v, n - 1);
      assert [v] + Repeat(v, n - 1) == Repeat(v, n);
      r
  }

  /** Python's `a % b` for b != 0: the result takes the sign of b. */
  function PyMod(a: int, b: int): (r: int)
    requires b != 0
    ensures b > 0 ==> 0 <= r < b
    ensures b < 0 ==> b < r <= 0
  {
    if b > 0 || a % b == 0 then a % b else a % b + b
  }

  /** How many bits PAD_TO_EVEN appends: len % padCount, or len itself when
      padCount is zero; a negative count gives a non-positive remainder and
      so appends nothing. */
  function PadToEvenCount(len: nat, padCount: int): int {
    if padCount != 0 then PyMod(len, padCount) else len
  }

  /** Step 1 of crcCompute: padding appended to a copy of the payload. */
  function PadPayload(payload: seq<Bit>, padType: PadType, padCount: int, padVal: Bit): (r: seq<Bit>)
    ensures padType == NoPad ==> r == payload
    ensures padType == PadAbs ==> r == payload + Repeat(padVal, Max(padCount, 0))
    ensures padType == PadToEven ==>
      r == payload + Repeat(padVal, if padCount > 0 then |payload| % padCount else if padCount == 0 then |payload| else 0)
  {
    match padType
    case NoPad => payload
    case PadAbs => AppendCopies(payload, padVal, padCount)
    case PadToEven => AppendCopies(payload, padVal, PadToEvenCount(|payload|, padCount))
  }

  /** PAD_TO_EVEN lands on a multiple of a positive pad count exactly when
      twice the shortfall it adds is itself a multiple: the count it adds is
      len % padCount, not the distance to the next multiple. */
  lemma PadToEvenReachesMultipleIff(payload: seq<Bit>, padCount: int, padVal: Bit)
    requires padCount > 0
    ensures |PadPayload(payload, PadToEven, padCount, padVal)| % padCount == 0
      <==> (2 * (|payload| % padCount)) % padCount == 0
  {
    var n, m, q := |payload|, |payload| % padCount, |payload| / padCount;
    var len := |PadPayload(payload, PadToEven, padCount, padVal)|;
    assert len == q * padCount + 2 * m;
    var e, d := (2 * m) % padCount, (2 * m) / padCount;
    assert len == (q + d) * padCount + e;
    ModUnique(len, padCount, q + d, e);
  }

  /** A payload already a multiple of the pad count gets no padding, and one
      that is not gets len % padCount bits, so a 20-bit payload padded to a
      multiple of 8 gets 4 bits (reaching 24), and a 21-bit one gets 5
      (reaching 26, not a multiple of 8). */
  lemma PadToEvenExamples(padVal: Bit)
    ensures PadPayload(Repeat(Zero, 16), PadToEven, 8, padVal) == Repeat(Zero, 16)
    ensures |PadPayload(Repeat(Zero, 20), PadToEven, 8, padVal)| == 24
    ensures |PadPayload(Repeat(Zero, 21), PadToEven, 8, padVal)| == 26
  {
    assert Repeat(Zero, 16) + Repeat(padVal, 0) == Repeat(Zero, 16);
  }

  /** The padding PAD_TO_EVEN evidently intends ("how many short of
      even"): the fewest pad bits that bring the payload to a multiple of a
      positive pad count. */
  function PadToMultiple(payload: seq<Bit>, padCount: nat, padVal: Bit): (r: seq<Bit>)
    requires padCount > 0
    ensures |payload| <= |r| < |payload| + padCount && |r| % padCount == 0
    ensures r == payload + Repeat(padVal, |r| - |payload|)
  {
    var m := |payload| % padCount;
    var n := if m == 0 then 0 else padCount - m;
    assert |payload| + n == (|payload| / padCount + (if m == 0 then 0 else 1)) * padCount;
    ModUnique(|payload| + n, padCount, |payload| / padCount + (if m == 0 then 0 else 1), 0);
    payload + Repeat(padVal, n)
  }

  /** No shorter padding reaches a multiple: the count is the least one. */
  lemma PadToMultipleIsLeast(payload: seq<Bit>, padCount: nat, padVal: Bit, k: nat)
    requires padCount > 0 && k < |PadToMultiple(payload, padCount, padVal)| - |payload|
    ensures (|payload| + k) % padCount != 0
  {
    var q, m := |payload| / padCount, |payload| % padCount;
    assert |payload| + k == q * padCount + (m + k);
    assert 0 < m + k < padCount;
    ModUnique(|payload| + k, padCount, q, m + k);
  }

  // ---------------------------------------------------------------------
  // Step 2: input bit order

  /** Where element k of the reflected list comes from: inside the complete
      8-bit groups, the mirror position within its group; in a trailing
      group of fewer than 8 bits, k itself. */
  function ReflectSource(len: nat, k: nat): (j: nat)
    requires k < len
    ensures j < len
  {
    if k < len - len % 8 then
      assert k / 8 < len / 8;
      k - k % 8 + (7 - k % 8)
    else k
  }

  lemma ReflectSourceShift(len: nat, k: nat)
    requires len >= 8 && 8 <= k < len
    ensures 8 + ReflectSource(len - 8, k - 8) == ReflectSource(len, k)
  {
    assert (len - 8) % 8 == len % 8;
    assert (k - 8) % 8 == k % 8;
  }

  lemma ReflectSourceFirst(len: nat, k: nat)
    requires len >= 8 && k < 8
    ensures ReflectSource(len, k) == 7 - k
  {
    assert k % 8 == k;
    assert len - len % 8 >= 8 by {
      assert len / 8 >= 1;
    }
  }

  lemma ReflectSourceShort(len: nat, k: nat)
    requires k < len < 8
    ensures ReflectSource(len, k) == k
  {
    assert len % 8 == len;
  }

  lemma ReflectCons(s: seq<Bit>, t: seq<Bit>)
    requires |s| >= 8 && |t| == |s| - 8
    requires forall j :: 0 <= j < |t| ==> t[j] == s[8..][ReflectSource(|t|, j)]
    ensures forall k :: 0 <= k < |s| ==> (Reverse(s[..8]) + t)[k] == s[ReflectSource(|s|, k)]
  {
    var r := Reverse(s[..8]) + t;
    forall k | 0 <= k < |s| ensures r[k] == s[ReflectSource(|s|, k)] {
      if k < 8 {
        ReflectSourceFirst(|s|, k);
        calc {
          r[k];
          Reverse(s[..8])[k];
          s[..8][7 - k];
        }
      } else {
        ReflectSourceShift(|s|, k);
        var j := ReflectSource(|t|, k - 8);
        calc {
          r[k];
          t[k - 8];
          s[8..][j];
          s[8 + j];
        }
      }
    }
  }

  /** The CRC_REFLECT loop: each complete 8-bit group is reversed in place,
      and a trailing group of fewer than 8 bits is left as it is. */
  function Reflect(s: seq<Bit>): (r: seq<Bit>)
    ensures |r| == |s|
    ensures forall k :: 0 <= k < |s| ==> r[k] == s[ReflectSource(|s|, k)]
    decreases |s|
  {
    if |s| < 8 then
      assert forall k :: 0 <= k < |s| ==> s[k] == s[ReflectSource(|s|, k)] by {
        forall k | 0 <= k < |s| ensures s[k] == s[ReflectSource(|s|, k)] {
          ReflectSourceShort(|s|, k);
        }
      }
      s
    else
      var r := Reverse(s[..8]) + Reflect(s[8..]);
      ReflectCons(s, Reflect(s[8..]));
      r
  }

  lemma {:induction false} ReflectInvolution(s: seq<Bit>)
    ensures Reflect(Reflect(s)) == s
    decreases |s|
  {
    if |s| >= 8 {
      var r := Reflect(s);
      assert r[..8] == Reverse(s[..8]) && r[8..] == Reflect(s[8..]);
      ReflectInvolution(s[8..]);
      ReverseReverse(s[..8]);
      assert s == s[..8] + s[8..];
    }
  }

  lemma {:induction false} ReverseMultiset(s: seq<Bit>)
    ensures multiset(Reverse(s)) == multiset(s)
    decreases |s|
  {
    if |s| > 0 {
      var init, last := s[..|s| - 1], s[|s| - 1];
      ReverseMultiset(init);
      assert Reverse(s) == [last] + Reverse(init);
      assert s == init + [last];
      calc {
        multiset(Reverse(s));
        multiset([last]) + multiset(Reverse(init));
        multiset(init) + multiset([last]);
        multiset(s);
      }
    }
  }

  lemma {:induction false} ReflectMultiset(s: seq<Bit>)
    ensures multiset(Reflect(s)) == multiset(s)
    decreases |s|
  {
    if |s| >= 8 {
      ReverseMultiset(s[..8]);
      ReflectMultiset(s[8..]);
      assert s == s[..8] + s[8..];
    }
  }

  /** Step 2 of crcCompute: the padded payload in the chosen bit order.  Each
      order only permutes the bits. */
  function ReorderInput(s: seq<Bit>, order: BitOrder): (r: seq<Bit>)
    ensures |r| == |s|
    ensures multiset(r) == multiset(s)
    ensures IsBinary(s) ==> IsBinary(r)
  {
    match order
    case CrcNorm => s
    case CrcReverse =>
      ReverseMultiset(s);
      ReverseBinary(s);
      Reverse(s)
    case CrcReflect =>
      ReflectMultiset(s);
      ReflectBinary(s);
      Reflect(s)
  }

  lemma ReflectBinary(s: seq<Bit>)
    ensures IsBinary(s) ==> IsBinary(Reflect(s))
  {
    var r := Reflect(s);
    if IsBinary(s) {
      forall k | 0 <= k < |r| ensures r[k] != X {
        assert r[k] == s[ReflectSource(|s|, k)];
      }
    }
  }

  // ---------------------------------------------------------------------
  // Steps 3 and 4: working buffer and long division

  /** The polynomial XORed into the buffer at offset i (the inner j loop). */
  function XorAt(buf: seq<Bit>, poly: seq<Bit>, i: nat): seq<Bit>
    requires i + |poly| <= |buf|
  {
    seq(|buf|, k requires 0 <= k < |buf| => if i <= k < i + |poly| then Xor(buf[k], poly[k - i]) else buf[k])
  }

  /** One division step at offset i: the polynomial is added (mod 2) there
      when the buffer bit is 1. */
  function Step(buf: seq<Bit>, poly: seq<Bit>, i: nat): seq<Bit>
    requires i < |buf| && i + |poly| <= |buf|
  {
    if buf[i] == One then XorAt(buf, poly, i) else buf
  }

  /** Division steps i .. n-1. */
  function DivideFrom(buf: seq<Bit>, poly: seq<Bit>, i: nat, n: nat): (r: seq<Bit>)
    requires n <= |buf| && n + |poly| <= |buf| + 1
    ensures |r| == |buf|
    decreases n - i
  {
    if i >= n then buf
    else DivideFrom(Step(buf, poly, i), poly, i + 1, n)
  }

  /** Step 4 of crcCompute: the division loop over the first n positions,
      n being the payload's length before padding. */
  function Divide(buf: seq<Bit>, poly: seq<Bit>, n: nat): seq<Bit>
    requires n <= |buf| && n + |poly| <= |buf| + 1
  {
    DivideFrom(buf, poly, 0, n)
  }

  /** The inner loop of the division: XOR the polynomial into the buffer
      at offset i, one position at a time. */
  method AddPolyAt(buf: seq<Bit>, poly: seq<Bit>, i: nat) returns (r: seq<Bit>)
    requires i + |poly| <= |buf|
    ensures r == XorAt(buf, poly, i)
  {
    r := buf;
    var j := 0;
    while j < |poly|
      invariant 0 <= j <= |poly| && |r| == |buf|
      invariant forall k :: 0 <= k < |r| ==> r[k] == (if i <= k < i + j then Xor(buf[k], poly[k - i]) else buf[k])
    {
      r := r[i + j := Xor(r[i + j], poly[j])];
      j := j + 1;
    }
    assert forall k :: 0 <= k < |r| ==> r[k] == XorAt(buf, poly, i)[k];
  }

  /** The division loop as the source writes it, two nested loops updating
      the buffer in place. */
  method LongDivision(buf: seq<Bit>, poly: seq<Bit>, n: nat) returns (r: seq<Bit>)
    requires n <= |buf| && n + |poly| <= |buf| + 1
    ensures r == Divide(buf, poly, n)
    ensures IsBinary(buf) && |poly| >= 1 && poly[0] == One ==> IsBinary(r) && forall k :: 0 <= k < n ==> r[k] == Zero
  {
    r := buf;
    var i := 0;
    while i < n
      invariant 0 <= i <= n && |r| == |buf|
      invariant DivideFrom(r, poly, i, n) == Divide(buf, poly, n)
    {
      ghost var r0 := r;
      if r[i] == One {
        r := AddPolyAt(r, poly, i);
      }
      assert r == Step(r0, poly, i);
      i := i + 1;
    }
    if IsBinary(buf) && |poly| >= 1 && poly[0] == One {
      DivideClearsPrefix(buf, poly, 0, n);
    }
  }

  /** A step with a leading coefficient of 1 clears its own position and
      keeps the buffer 0/1. */
  lemma StepClears(buf: seq<Bit>, poly: seq<Bit>, i: nat)
    requires i < |buf| && i + |poly| <= |buf| && |poly| >= 1 && poly[0] == One
    requires IsBinary(buf) && forall k :: 0 <= k < i ==> buf[k] == Zero
    ensures IsBinary(Step(buf, poly, i)) && forall k :: 0 <= k <= i ==> Step(buf, poly, i)[k] == Zero
  {
    if buf[i] == One {
      var r := XorAt(buf, poly, i);
      forall k | 0 <= k < |r| ensures r[k] != X && (k <= i ==> r[k] == Zero) {
        if k < i {
          assert r[k] == buf[k];
        } else if k == i {
          assert r[k] == Xor(One, poly[0]);
        }
      }
    }
  }

  /** With a leading coefficient of 1 and 0/1 bits, every position the
      division passes over is 0 afterwards. */
  lemma {:induction false} DivideClearsPrefix(buf: seq<Bit>, poly: seq<Bit>, i: nat, n: nat)
    requires |poly| >= 1 && poly[0] == One && n + |poly| <= |buf| + 1 && i <= n
    requires IsBinary(buf)
    requires forall k :: 0 <= k < i ==> buf[k] == Zero
    ensures IsBinary(DivideFrom(buf, poly, i, n))
    ensures forall k :: 0 <= k < n ==> DivideFrom(buf, poly, i, n)[k] == Zero
    decreases n - i
  {
    if i < n {
      StepClears(buf, poly, i);
      DivideClearsPrefix(Step(buf, poly, i), poly, i + 1, n);
    }
  }

  /** Positions at or past n + len(poly) - 1 are out of the division's reach. */
  lemma {:induction false} DivideKeepsTail(buf: seq<Bit>, poly: seq<Bit>, i: nat, n: nat)
    requires |poly| >= 1 && n + |poly| <= |buf| + 1
    ensures forall k :: n + |poly| - 1 <= k < |buf| ==> DivideFrom(buf, poly, i, n)[k] == buf[k]
    decreases n - i
  {
    if i < n {
      DivideKeepsTail(Step(buf, poly, i), poly, i + 1, n);
    }
  }

  lemma {:induction false} DivideSplit(buf: seq<Bit>, poly: seq<Bit>, i: nat, j: nat, n: nat)
    requires |poly| >= 1 && n + |poly| <= |buf| + 1 && i <= j <= n
    ensures DivideFrom(buf, poly, i, n) == DivideFrom(DivideFrom(buf, poly, i, j), poly, j, n)
    decreases j - i
  {
    if i < j {
      DivideSplit(Step(buf, poly, i), poly, i + 1, j, n);
    }
  }

  lemma StepAppend(buf: seq<Bit>, t: seq<Bit>, poly: seq<Bit>, i: nat)
    requires i < |buf| && i + |poly| <= |buf|
    ensures Step(buf + t, poly, i) == Step(buf, poly, i) + t
  {
    assert (buf + t)[i] == buf[i];
    if buf[i] == One {
      var l, r := XorAt(buf + t, poly, i), XorAt(buf, poly, i) + t;
      assert |l| == |r|;
      forall k | 0 <= k < |l| ensures l[k] == r[k] {
        if k < |buf| {
          assert (buf + t)[k] == buf[k];
        }
      }
    }
  }

  /** Bits appended past the division's reach ride along unchanged. */
  lemma {:induction false} DivideAppend(buf: seq<Bit>, t: seq<Bit>, poly: seq<Bit>, i: nat, n: nat)
    requires |poly| >= 1 && n + |poly| <= |buf| + 1
    ensures DivideFrom(buf + t, poly, i, n) == DivideFrom(buf, poly, i, n) + t
    decreases n - i
  {
    if i < n {
      StepAppend(buf, t, poly, i);
      DivideAppend(Step(buf, poly, i), t, poly, i + 1, n);
    }
  }

  function XorSeq(a: seq<Bit>, b: seq<Bit>): (r: seq<Bit>)
    requires |a| == |b|
  {
    seq(|a|, k requires 0 <= k < |a| => Xor(a[k], b[k]))
  }

  /** Adding a pattern that is 0 at the step's position commutes with the
      step. */
  lemma StepPerturb(buf: seq<Bit>, d: seq<Bit>, poly: seq<Bit>, i: nat)
    requires i < |buf| && i + |poly| <= |buf| && |d| == |buf| && d[i] == Zero
    ensures Step(XorSeq(buf, d), poly, i) == XorSeq(Step(buf, poly, i), d)
  {
    var left := XorSeq(buf, d);
    assert left[i] == One <==> buf[i] == One;
    if buf[i] == One {
      var l, r := XorAt(left, poly, i), XorSeq(XorAt(buf, poly, i), d);
      forall k | 0 <= k < |buf| ensures l[k] == r[k] {
      }
      assert l == r;
    }
  }

  /** The division commutes with adding a pattern that is 0 wherever a
      division step still has to decide. */
  lemma {:induction false} DividePerturb(buf: seq<Bit>, d: seq<Bit>, poly: seq<Bit>, i: nat, n: nat)
    requires |poly| >= 1 && n + |poly| <= |buf| + 1 && |d| == |buf|
    requires forall k :: i <= k < n ==> d[k] == Zero
    ensures DivideFrom(XorSeq(buf, d), poly, i, n) == XorSeq(DivideFrom(buf, poly, i, n), d)
    decreases n - i
  {
    if i < n {
      StepPerturb(buf, d, poly, i);
      DividePerturb(Step(buf, poly, i), d, poly, i + 1, n);
    }
  }

  lemma {:induction false} DivideZeros(len: nat, poly: seq<Bit>, i: nat, n: nat)
    requires |poly| >= 1 && n + |poly| <= len + 1
    ensures DivideFrom(Repeat(Zero, len), poly, i, n) == Repeat(Zero, len)
    decreases n - i
  {
    if i < n {
      DivideZeros(len, poly, i + 1, n);
    }
  }

  // ---------------------------------------------------------------------
  // Steps 5 to 7: remainder, final reversal, final mask

  /** Step 6: no reversal, full reversal, or the 16-bit byte swap. */
  function FinalReverse(remainder: seq<Bit>, reverseFinal: FinalReversal): (r: seq<Bit>)
    ensures reverseFinal == ReverseBytes ==> |r| == 16
    ensures reverseFinal != ReverseBytes ==> |r| == |remainder| && multiset(r) == multiset(remainder)
  {
    ReverseMultiset(remainder);
    match reverseFinal
    case ReverseFalse => remainder
    case ReverseTrue => Reverse(remainder)
    case ReverseBytes => ByteReverse(remainder)
  }

  /** Step 7, the loop over crcOut: bit i is 1 exactly when one of crcOut[i]
      and finalXOR[i] is 1, so an X on either side counts as 0. */
  function ApplyFinalXor(crcOut: seq<Bit>, finalXOR: seq<Bit>): (r: seq<Bit>)
    requires |finalXOR| >= |crcOut|
    ensures |r| == |crcOut| && IsBinary(r)
    ensures forall i :: 0 <= i < |crcOut| ==> (r[i] == One <==> (crcOut[i] == One) != (finalXOR[i] == One))
  {
    if |crcOut| == 0 then []
    else [Xor(crcOut[0], finalXOR[0])] + ApplyFinalXor(crcOut[1..], finalXOR[1..])
  }

  /** Applying the same mask twice gives back a 0/1 output. */
  lemma ApplyFinalXorInvolution(crcOut: seq<Bit>, finalXOR: seq<Bit>)
    requires |finalXOR| >= |crcOut| && IsBinary(crcOut)
    ensures ApplyFinalXor(ApplyFinalXor(crcOut, finalXOR), finalXOR) == crcOut
  {
    var once := ApplyFinalXor(crcOut, finalXOR);
    var twice := ApplyFinalXor(once, finalXOR);
    forall i | 0 <= i < |crcOut| ensures twice[i] == crcOut[i] {
    }
  }

  /** Steps 1 to 3: padded, reordered payload followed by len(crcPoly) - 1
      copies of the initial value. */
  function WorkingBuffer(payload: seq<Bit>, p: CrcParams): (r: seq<Bit>)
    ensures |r| >= |payload| + TailLen(p)
    ensures var pad := PadPayload(payload, p.padType, p.padCount, p.padVal);
      && |r| == |pad| + TailLen(p)
      && multiset(r[..|pad|]) == multiset(pad)
      && forall k :: |pad| <= k < |r| ==> r[k] == p.initVal
  {
    var pad := PadPayload(payload, p.padType, p.padCount, p.padVal);
    var r := ReorderInput(pad, p.inputBitOrder) + Repeat(p.initVal, TailLen(p));
    assert r[..|pad|] == ReorderInput(pad, p.inputBitOrder);
    r
  }

  /** Steps 4 and 5: the last len(crcPoly) - 1 bits of the divided buffer,
      as the slice `[-(len(crcPoly) - 1):]` takes them; for a one-element
      polynomial that slice is the whole buffer, and for an empty one all
      but its first bit. */
  function CrcRemainder(payload: seq<Bit>, p: CrcParams): (r: seq<Bit>)
    ensures |p.crcPoly| >= 2 ==> |r| == |p.crcPoly| - 1
    ensures |p.crcPoly| == 1 ==> |r| == |WorkingBuffer(payload, p)|
  {
    var buf := WorkingBuffer(payload, p);
    PySuffix(Divide(buf, p.crcPoly, |payload|), 1 - |p.crcPoly|)
  }

  /** The length of crcOut, which the final mask must cover. */
  function CrcOutLen(payload: seq<Bit>, p: CrcParams): nat {
    if p.reverseFinal == ReverseBytes then 16 else |CrcRemainder(payload, p)|
  }

  /** Everything crcCompute needs to run to completion on this payload. */
  predicate CrcDefined(payload: seq<Bit>, p: CrcParams) {
    IsBinary(payload) && ValidParams(p) && |p.finalXOR| >= CrcOutLen(payload, p)
  }

  /** crcCompute.  The payload is taken by value: the source copies it
      before padding, so the caller's list is never changed. */
  function CrcCompute(payload: seq<Bit>, p: CrcParams): (r: seq<Bit>)
    requires CrcDefined(payload, p)
    ensures |r| == CrcOutLen(payload, p) && IsBinary(r)
    ensures p.reverseFinal != ReverseBytes && |p.crcPoly| >= 2 ==> |r| == |p.crcPoly| - 1
    ensures p.reverseFinal == ReverseBytes && |CrcRemainder(payload, p)| != 16 ==>
      forall i :: 0 <= i < 16 ==> (r[i] == One <==> p.finalXOR[i] == One)
  {
    var crcOut := FinalReverse(CrcRemainder(payload, p), p.reverseFinal);
    assert p.reverseFinal == ReverseBytes && |CrcRemainder(payload, p)| != 16 ==> crcOut == Repeat(X, 16);
    ApplyFinalXor(crcOut, p.finalXOR)
  }

  /** The plain variant: normal order, zero tail, no reversal, no mask, no
      padding. */
  function PlainParams(poly: seq<Bit>): CrcParams
    requires |poly| >= 1
  {
    CrcParams(poly, CrcNorm, Zero, ReverseFalse, Repeat(Zero, |poly| - 1), NoPad, 0, Zero)
  }

  lemma ApplyZeroMask(s: seq<Bit>)
    requires IsBinary(s)
    ensures ApplyFinalXor(s, Repeat(Zero, |s|)) == s
  {
    var r := ApplyFinalXor(s, Repeat(Zero, |s|));
    forall i | 0 <= i < |s| ensures r[i] == s[i] {
    }
  }

  /** The plain CRC is the remainder left after dividing the payload
      followed by len(crcPoly) - 1 zeros, and the division clears the payload
      positions. */
  lemma PlainCrcIsRemainder(data: seq<Bit>, poly: seq<Bit>)
    requires IsBinary(data) && IsBinary(poly) && |poly| >= 2 && poly[0] == One
    ensures Divide(data + Repeat(Zero, |poly| - 1), poly, |data|)
      == Repeat(Zero, |data|) + CrcCompute(data, PlainParams(poly))
  {
    var buf := data + Repeat(Zero, |poly| - 1);
    var divided := Divide(buf, poly, |data|);
    assert divided[..|data|] == Repeat(Zero, |data|) by {
      DivideClearsPrefix(buf, poly, 0, |data|);
    }
    assert divided[|data|..] == CrcCompute(data, PlainParams(poly)) by {
      PlainCrcUnfold(data, poly);
    }
    SplitAt(divided, |data|);
  }

  /** Without a final reversal the output is the masked remainder. */
  lemma CrcComputeUnreversed(payload: seq<Bit>, p: CrcParams)
    requires CrcDefined(payload, p) && p.reverseFinal == ReverseFalse
    ensures CrcCompute(payload, p) == ApplyFinalXor(CrcRemainder(payload, p), p.finalXOR)
  {
  }

  /** For a polynomial of two or more bits the remainder is the last
      len(crcPoly) - 1 bits of the divided buffer. */
  lemma CrcRemainderIsTail(payload: seq<Bit>, p: CrcParams)
    requires |p.crcPoly| >= 2
    ensures var buf := WorkingBuffer(payload, p);
      CrcRemainder(payload, p) == Divide(buf, p.crcPoly, |payload|)[|buf| - (|p.crcPoly| - 1)..]
  {
  }

  lemma PlainWorkingBuffer(data: seq<Bit>, poly: seq<Bit>)
    requires |poly| >= 1
    ensures WorkingBuffer(data, PlainParams(poly)) == data + Repeat(Zero, |poly| - 1)
  {
  }

  lemma SplitAt(s: seq<Bit>, n: nat)
    requires n <= |s|
    ensures s == s[..n] + s[n..]
  {
  }

  lemma {:induction false} PlainCrcUnfold(data: seq<Bit>, poly: seq<Bit>)
    requires IsBinary(data) && IsBinary(poly) && |poly| >= 2 && poly[0] == One
    ensures CrcCompute(data, PlainParams(poly)) == Divide(data + Repeat(Zero, |poly| - 1), poly, |data|)[|data|..]
  {
    var buf := data + Repeat(Zero, |poly| - 1);
    var p := PlainParams(poly);
    PlainWorkingBuffer(data, poly);
    CrcRemainderIsTail(data, p);
    var rem := Divide(buf, poly, |data|)[|data|..];
    assert CrcRemainder(data, p) == rem;
    DivideClearsPrefix(buf, poly, 0, |data|);
    assert IsBinary(rem);
    CrcComputeUnreversed(data, p);
    ApplyZeroMask(rem);
  }

  /** The codeword buffer is the payload's own buffer with the remainder
      added at offset n. */
  lemma {:induction false} CodewordAsPerturbation(data: seq<Bit>, rem: seq<Bit>)
    requires IsBinary(data) && IsBinary(rem)
    ensures var zk := Repeat(Zero, |rem|);
      data + rem + zk == XorSeq(data + zk + zk, Repeat(Zero, |data|) + rem + zk)
  {
    var n, k := |data|, |rem|;
    var zk := Repeat(Zero, k);
    var buf := data + rem + zk;
    var base := data + zk + zk;
    var delta := Repeat(Zero, n) + rem + zk;
    forall i | 0 <= i < |buf| ensures buf[i] == XorSeq(base, delta)[i] {
      if i < n {
        assert buf[i] == data[i] && base[i] == data[i] && delta[i] == Zero;
      } else if i < n + k {
        assert buf[i] == rem[i - n] && base[i] == Zero && delta[i] == rem[i - n];
      } else {
        assert buf[i] == Zero && base[i] == Zero && delta[i] == Zero;
      }
    }
  }

  lemma XorSeqSelf(s: seq<Bit>)
    ensures XorSeq(s, s) == Repeat(Zero, |s|)
  {
  }

  /** Over the payload positions, the codeword buffer divides like the
      payload's own buffer with the remainder added at offset n, which then
      cancels. */
  lemma {:induction false} CodewordPayloadPass(data: seq<Bit>, rem: seq<Bit>, poly: seq<Bit>)
    requires IsBinary(data) && IsBinary(rem) && |poly| >= 2 && |rem| == |poly| - 1
    requires Divide(data + Repeat(Zero, |rem|), poly, |data|) == Repeat(Zero, |data|) + rem
    ensures DivideFrom(data + rem + Repeat(Zero, |rem|), poly, 0, |data|) == Repeat(Zero, |data| + 2 * |rem|)
  {
    var n, k := |data|, |rem|;
    var zk := Repeat(Zero, k);
    var base := data + zk + zk;
    var delta := Repeat(Zero, n) + rem + zk;
    var buf := data + rem + zk;
    calc {
      DivideFrom(buf, poly, 0, n);
      { CodewordAsPerturbation(data, rem); }
      DivideFrom(XorSeq(base, delta), poly, 0, n);
      { DividePerturb(base, delta, poly, 0, n); }
      XorSeq(DivideFrom(base, poly, 0, n), delta);
      { DivideAppend(data + zk, zk, poly, 0, n); }
      XorSeq(DivideFrom(data + zk, poly, 0, n) + zk, delta);
      XorSeq(delta, delta);
      { XorSeqSelf(delta); assert |delta| == n + 2 * k; }
      Repeat(Zero, n + 2 * k);
    }
  }

  /** A payload followed by its remainder divides to all zeros. */
  lemma {:induction false} CodewordDividesToZero(data: seq<Bit>, rem: seq<Bit>, poly: seq<Bit>)
    requires IsBinary(data) && IsBinary(rem) && |poly| >= 2 && |rem| == |poly| - 1
    requires Divide(data + Repeat(Zero, |rem|), poly, |data|) == Repeat(Zero, |data|) + rem
    ensures Divide(data + rem + Repeat(Zero, |rem|), poly, |data| + |rem|) == Repeat(Zero, |data| + 2 * |rem|)
  {
    var n, k := |data|, |rem|;
    var buf := data + rem + Repeat(Zero, k);
    calc {
      Divide(buf, poly, n + k);
      { DivideSplit(buf, poly, 0, n, n + k); }
      DivideFrom(DivideFrom(buf, poly, 0, n), poly, n, n + k);
      { CodewordPayloadPass(data, rem, poly); }
      DivideFrom(Repeat(Zero, n + 2 * k), poly, n, n + k);
      { DivideZeros(n + 2 * k, poly, n, n + k); }
      Repeat(Zero, n + 2 * k);
    }
  }

  /** The defining property of a CRC: the payload followed by its own plain
      CRC leaves a zero remainder, so the plain CRC of that codeword is all
      zeros. */
  lemma {:induction false} CrcResidueZero(data: seq<Bit>, poly: seq<Bit>)
    requires IsBinary(data) && IsBinary(poly) && |poly| >= 2 && poly[0] == One
    ensures IsBinary(data + CrcCompute(data, PlainParams(poly)))
    ensures CrcCompute(data + CrcCompute(data, PlainParams(poly)), PlainParams(poly)) == Repeat(Zero, |poly| - 1)
  {
    PlainDefined(data, poly);
    var crc := CrcCompute(data, PlainParams(poly));
    ConcatBinary(data, crc);
    PlainCrcIsRemainder(data, poly);
    CodewordCrcZero(data, crc, poly);
  }

  /** A payload followed by a remainder that its zero-extended division
      leaves has an all-zero plain CRC. */
  lemma CodewordCrcZero(data: seq<Bit>, rem: seq<Bit>, poly: seq<Bit>)
    requires IsBinary(data) && IsBinary(rem) && IsBinary(poly) && |poly| >= 2 && poly[0] == One
    requires |rem| == |poly| - 1
    requires Divide(data + Repeat(Zero, |rem|), poly, |data|) == Repeat(Zero, |data|) + rem
    ensures CrcCompute(data + rem, PlainParams(poly)) == Repeat(Zero, |rem|)
  {
    var word := data + rem;
    ConcatBinary(data, rem);
    assert Divide(word + Repeat(Zero, |rem|), poly, |word|) == Repeat(Zero, |word| + |rem|) by {
      CodewordDividesToZero(data, rem, poly);
      assert word + Repeat(Zero, |rem|) == data + rem + Repeat(Zero, |rem|);
    }
    ZeroRemainderCrc(word, poly);
  }

  /** A word whose zero-extended division leaves all zeros has an all-zero
      plain CRC. */
  lemma ZeroRemainderCrc(word: seq<Bit>, poly: seq<Bit>)
    requires IsBinary(word) && IsBinary(poly) && |poly| >= 2 && poly[0] == One
    requires Divide(word + Repeat(Zero, |poly| - 1), poly, |word|) == Repeat(Zero, |word| + |poly| - 1)
    ensures CrcCompute(word, PlainParams(poly)) == Repeat(Zero, |poly| - 1)
  {
    PlainCrcUnfold(word, poly);
    ZerosSuffix(|word|, |poly| - 1);
  }

  /** The plain variant is defined on every 0/1 payload. */
  lemma PlainDefined(data: seq<Bit>, poly: seq<Bit>)
    requires IsBinary(data) && IsBinary(poly) && |poly| >= 2
    ensures CrcDefined(data, PlainParams(poly))
    ensures |CrcCompute(data, PlainParams(poly))| == |poly| - 1
  {
    assert |CrcRemainder(data, PlainParams(poly))| == |poly| - 1;
  }

  lemma ConcatBinary(a: seq<Bit>, b: seq<Bit>)
    requires IsBinary(a) && IsBinary(b)
    ensures IsBinary(a + b)
  {
    forall i | 0 <= i < |a + b| ensures (a + b)[i] != X {
      if i < |a| {
        assert (a + b)[i] == a[i];
      } else {
        assert (a + b)[i] == b[i - |a|];
      }
    }
  }

  lemma ZerosSuffix(a: nat, b: nat)
    ensures Repeat(Zero, a + b)[a..] == Repeat(Zero, b)
  {
  }

  /** With PAD_ABS and at least len(crcPoly) - 1 pad bits in normal order,
      the remainder positions lie past the division's reach: the result is
      the initial-value tail under the mask, whatever the payload. */
  lemma CrcIgnoresPayloadUnderLongPad(payload: seq<Bit>, p: CrcParams)
    requires CrcDefined(payload, p) && |p.crcPoly| >= 2
    requires p.padType == PadAbs && p.padCount >= |p.crcPoly| - 1
    requires p.inputBitOrder == CrcNorm && p.reverseFinal == ReverseFalse
    ensures CrcCompute(payload, p) == ApplyFinalXor(Repeat(p.initVal, |p.crcPoly| - 1), p.finalXOR)
  {
    var k := |p.crcPoly| - 1;
    var buf := WorkingBuffer(payload, p);
    LongPadBuffer(payload, p);
    DivideKeepsTail(buf, p.crcPoly, 0, |payload|);
    CrcRemainderIsTail(payload, p);
    assert CrcRemainder(payload, p) == Repeat(p.initVal, k);
    CrcComputeUnreversed(payload, p);
  }

  /** Under PAD_ABS in normal order the buffer is the payload, the pad bits
      and the initial-value tail. */
  lemma LongPadBuffer(payload: seq<Bit>, p: CrcParams)
    requires p.padType == PadAbs && p.padCount >= 0 && p.inputBitOrder == CrcNorm
    ensures WorkingBuffer(payload, p) == payload + Repeat(p.padVal, p.padCount) + Repeat(p.initVal, TailLen(p))
  {
  }
}

=== FILE: hexbits.dfy ===
/**
 * The hexadecimal helpers of bit_list_utilities.py: four-bit nibbles to and
 * from upper-case hex characters, two-character hex bytes, and nibble
 * inversion.  A nibble that cannot be converted becomes the character 'X'
 * (LOGIC_X) one way, and four unknown bits the other way.
 */
module HexBits {
  import opened BitLists

  /** The sixteen characters the nibble tables know: digits and upper-case A-F. */
  predicate IsHexDigit(c: char) {
    '0' <= c <= '9' || 'A' <= c <= 'F'
  }

  /** The value of an upper-case hex digit, independent of the tables below. */
  function HexValue(c: char): nat
    requires IsHexDigit(c)
  {
    if c <= '9' then c as nat - '0' as nat else c as nat - 'A' as nat + 10
  }

  /** Splitting a list in two: the front part is worth 2^|b| times as much. */
  lemma {:induction false} MsbValueAppend(a: seq<Bit>, b: seq<Bit>)
    ensures MsbValue(a + b) == MsbValue(a) * Pow2(|b|) + MsbValue(b)
    decreases |b|
  {
    if |b| == 0 {
      assert a + b == a;
    } else {
      var b' := b[..|b| - 1];
      var last := b[|b| - 1];
      assert (a + b)[..|a + b| - 1] == a + b';
      assert (a + b)[|a + b| - 1] == last;
      MsbValueAppend(a, b');
      var v, p := MsbValue(a), Pow2(|b'|);
      assert MsbValue(a + b) == 2 * (v * p + MsbValue(b')) + BitVal(last);
      assert MsbValue(b) == 2 * MsbValue(b') + BitVal(last);
      assert Pow2(|b|) == 2 * p;
      MulDouble(v, p);
    }
  }

  /** A byte's value from its two nibbles. */
  lemma MsbValueBytes(hi: seq<Bit>, lo: seq<Bit>)
    requires |hi| == 4 && |lo| == 4
    ensures MsbValue(hi + lo) == 16 * MsbValue(hi) + MsbValue(lo)
  {
    MsbValueAppend(hi, lo);
    var p := Pow2(|lo|);
    assert p == 16;
    MulComm(MsbValue(hi), p);
  }

  lemma MulComm(v: int, p: int)
    ensures v * p == p * v
  {
  }

  lemma MulDouble(v: int, p: int)
    ensures v * (2 * p) == 2 * (v * p)
  {
  }

  lemma MsbValueFour(b: seq<Bit>)
    ensures |b| == 4 ==> MsbValue(b) == 8 * BitVal(b[0]) + 4 * BitVal(b[1]) + 2 * BitVal(b[2]) + BitVal(b[3])
  {
    if |b| == 4 {
      assert b[..3][..2] == b[..2];
      assert b[..2][..1] == b[..1];
      assert b[..1][..0] == [];
    }
  }

  /** bitsToNibble: the hex digit of a four-bit list (its reversal when
      reverse is set), and 'X' for any list that is not four integer bits. */
  function BitsToNibble(bits: seq<Bit>, reverse: bool): (c: char)
    ensures c != 'X' <==> |bits| == 4 && IsBinary(bits)
    ensures c != 'X' ==> IsHexDigit(c) && HexValue(c) == BitsToDec(bits, false, reverse)
  {
    var b := if reverse then Reverse(bits) else bits;
    ReverseBinary(bits);
    MsbValueFour(b);
    if |b| != 4 then 'X'
    else
      match (b[0], b[1], b[2], b[3])
      case (Zero, Zero, Zero, Zero) => '0'
      case (Zero, Zero, Zero, One) => '1'
      case (Zero, Zero, One, Zero) => '2'
      case (Zero, Zero, One, One) => '3'
      case (Zero, One, Zero, Zero) => '4'
      case (Zero, One, Zero, One) => '5'
      case (Zero, One, One, Zero) => '6'
      case (Zero, One, One, One) => '7'
      case (One, Zero, Zero, Zero) => '8'
      case (One, Zero, Zero, One) => '9'
      case (One, Zero, One, Zero) => 'A'
      case (One, Zero, One, One) => 'B'
      case (One, One, Zero, Zero) => 'C'
      case (One, One, Zero, One) => 'D'
      case (One, One, One, Zero) => 'E'
      case (One, One, One, One) => 'F'
      case _ => 'X'
  }

  /** nibbleToBits: the four bits, MSB first, of an upper-case hex digit;
      four unknowns for any other character, lower case included. */
  function NibbleToBits(c: char): (r: seq<Bit>)
    ensures |r| == 4
    ensures IsHexDigit(c) <==> IsBinary(r)
    ensures !IsHexDigit(c) ==> r == [X, X, X, X]
    ensures IsHexDigit(c) ==> 8 * BitVal(r[0]) + 4 * BitVal(r[1]) + 2 * BitVal(r[2]) + BitVal(r[3]) == HexValue(c)
  {
    var r := match c
      case '0' => [Zero, Zero, Zero, Zero]
      case '1' => [Zero, Zero, Zero, One]
      case '2' => [Zero, Zero, One, Zero]
      case '3' => [Zero, Zero, One, One]
      case '4' => [Zero, One, Zero, Zero]
      case '5' => [Zero, One, Zero, One]
      case '6' => [Zero, One, One, Zero]
      case '7' => [Zero, One, One, One]
      case '8' => [One, Zero, Zero, Zero]
      case '9' => [One, Zero, Zero, One]
      case 'A' => [One, Zero, One, Zero]
      case 'B' => [One, Zero, One, One]
      case 'C' => [One, One, Zero, Zero]
      case 'D' => [One, One, Zero, One]
      case 'E' => [One, One, One, Zero]
      case 'F' => [One, One, One, One]
      case _ => [X, X, X, X];
    r
  }

  /** The bits of a hex digit are worth the digit. */
  lemma NibbleBitsValue(c: char)
    requires IsHexDigit(c)
    ensures MsbValue(NibbleToBits(c)) == HexValue(c)
  {
    MsbValueFour(NibbleToBits(c));
  }

  /** The two tables agree: a digit survives bits and back. */
  lemma NibbleRoundTrip(c: char)
    requires IsHexDigit(c)
    ensures BitsToNibble(NibbleToBits(c), false) == c
  {
    NibbleBitsValue(c);
  }

  /** The two tables agree: four integer bits survive a digit and back. */
  lemma BitsNibbleRoundTrip(bits: seq<Bit>)
    requires |bits| == 4 && IsBinary(bits)
    ensures NibbleToBits(BitsToNibble(bits, false)) == bits
  {
    var c := BitsToNibble(bits, false);
    NibbleBitsValue(c);
    MsbValueInjective(NibbleToBits(c), bits);
  }

  /** bitsToHexByteString: two hex characters for an eight-bit list, high
      nibble first, and "XX" for any other length. */
  function BitsToHexByteString(bits: seq<Bit>): (s: string)
    ensures |s| == 2
    ensures |bits| != 8 ==> s == "XX"
  {
    if |bits| == 8 then [BitsToNibble(bits[0..4], false), BitsToNibble(bits[4..8], false)] else "XX"
  }

  /** A list of four is integer bits exactly when its digit is a hex digit,
      and the digit is then worth the bits' MSB-first value. */
  lemma NibbleDigit(bits: seq<Bit>)
    requires |bits| == 4
    ensures var c := BitsToNibble(bits, false);
      (IsHexDigit(c) <==> IsBinary(bits)) && (IsBinary(bits) ==> HexValue(c) == MsbValue(bits))
  {
    assert !IsHexDigit('X');
  }

  lemma BinaryAppend(a: seq<Bit>, b: seq<Bit>)
    ensures IsBinary(a + b) <==> IsBinary(a) && IsBinary(b)
  {
    if IsBinary(a) && IsBinary(b) {
      forall i | 0 <= i < |a + b| ensures (a + b)[i] != X {
        if i >= |a| {
          assert (a + b)[i] == b[i - |a|];
        }
      }
    }
    if IsBinary(a + b) {
      forall i | 0 <= i < |a| ensures a[i] != X {
        assert (a + b)[i] == a[i];
      }
      forall i | 0 <= i < |b| ensures b[i] != X {
        assert (a + b)[|a| + i] == b[i];
      }
    }
  }

  /** The two characters are hex digits exactly when the eight bits are
      integers, and then they spell the byte's value, high nibble first. */
  lemma HexByteStringValue(bits: seq<Bit>)
    requires |bits| == 8
    ensures var s := BitsToHexByteString(bits);
      (IsHexDigit(s[0]) && IsHexDigit(s[1]) <==> IsBinary(bits))
      && (IsBinary(bits) ==> 16 * HexValue(s[0]) + HexValue(s[1]) == MsbValue(bits))
  {
    var hi, lo := bits[0..4], bits[4..8];
    assert bits == hi + lo;
    NibblePairValue(hi, lo);
  }

  lemma NibblePairValue(hi: seq<Bit>, lo: seq<Bit>)
    requires |hi| == 4 && |lo| == 4
    ensures var s := BitsToHexByteString(hi + lo);
      (IsHexDigit(s[0]) && IsHexDigit(s[1]) <==> IsBinary(hi + lo))
      && (IsBinary(hi + lo) ==> 16 * HexValue(s[0]) + HexValue(s[1]) == MsbValue(hi + lo))
  {
    var c0, c1 := BitsToNibble(hi, false), BitsToNibble(lo, false);
    HexByteStringOfNibbles(hi, lo);
    assert (IsHexDigit(c0) <==> IsBinary(hi)) && (IsBinary(hi) ==> HexValue(c0) == MsbValue(hi)) by {
      NibbleDigit(hi);
    }
    assert (IsHexDigit(c1) <==> IsBinary(lo)) && (IsBinary(lo) ==> HexValue(c1) == MsbValue(lo)) by {
      NibbleDigit(lo);
    }
    DigitPair(c0, c1, hi, lo);
  }

  lemma HexByteStringOfNibbles(hi: seq<Bit>, lo: seq<Bit>)
    requires |hi| == 4 && |lo| == 4
    ensures BitsToHexByteString(hi + lo) == [BitsToNibble(hi, false), BitsToNibble(lo, false)]
  {
    assert (hi + lo)[0..4] == hi && (hi + lo)[4..8] == lo;
  }

  /** Two digits that each stand for a nibble stand for the byte the two
      nibbles make. */
  lemma DigitPair(c0: char, c1: char, hi: seq<Bit>, lo: seq<Bit>)
    requires |hi| == 4 && |lo| == 4
    requires (IsHexDigit(c0) <==> IsBinary(hi)) && (IsBinary(hi) ==> HexValue(c0) == MsbValue(hi))
    requires (IsHexDigit(c1) <==> IsBinary(lo)) && (IsBinary(lo) ==> HexValue(c1) == MsbValue(lo))
    ensures IsHexDigit(c0) && IsHexDigit(c1) <==> IsBinary(hi + lo)
    ensures IsBinary(hi + lo) ==> 16 * HexValue(c0) + HexValue(c1) == MsbValue(hi + lo)
  {
    BinaryAppend(hi, lo);
    MsbValueBytes(hi, lo);
  }

  /** hexByteToBits: the bits of a two-character hex byte (characters past
      the second are ignored); the one-character string "0" is accepted as
      zero.  Any shorter string makes the source index past its end. */
  function HexByteToBits(s: string): (r: seq<Bit>)
    requires s == "0" || |s| >= 2
    ensures |r| == 8
  {
    if s == "0" then NibbleToBits('0') + NibbleToBits('0') else NibbleToBits(s[0]) + NibbleToBits(s[1])
  }

  /** "0" is the zero byte. */
  lemma HexByteZero()
    ensures HexByteToBits("0") == Repeat(Zero, 8)
  {
    assert NibbleToBits('0') == [Zero, Zero, Zero, Zero];
  }

  /** The eight bits are integers exactly when both characters are hex
      digits, and then they are worth the two-digit hex value. */
  lemma HexByteValue(s: string)
    requires |s| >= 2
    ensures var r := HexByteToBits(s);
      (IsHexDigit(s[0]) && IsHexDigit(s[1]) <==> IsBinary(r))
      && (IsBinary(r) ==> MsbValue(r) == 16 * HexValue(s[0]) + HexValue(s[1]))
  {
    var hi, lo := NibbleToBits(s[0]), NibbleToBits(s[1]);
    assert HexByteToBits(s) == hi + lo;
    if IsHexDigit(s[0]) {
      NibbleBitsValue(s[0]);
    }
    if IsHexDigit(s[1]) {
      NibbleBitsValue(s[1]);
    }
    BinaryAppend(hi, lo);
    MsbValueBytes(hi, lo);
  }

  /** Eight integer bits survive a hex byte string and back. */
  lemma HexByteRoundTrip(bits: seq<Bit>)
    requires |bits| == 8 && IsBinary(bits)
    ensures HexByteToBits(BitsToHexByteString(bits)) == bits
  {
    var s := BitsToHexByteString(bits);
    HexByteStringValue(bits);
    HexByteValue(s);
    MsbValueInjective(HexByteToBits(s), bits);
  }

  /** A two-digit hex string survives bits and back. */
  lemma HexStringRoundTrip(s: string)
    requires |s| == 2 && IsHexDigit(s[0]) && IsHexDigit(s[1])
    ensures BitsToHexByteString(HexByteToBits(s)) == s
  {
    var bits := HexByteToBits(s);
    HexByteValue(s);
    HexByteStringValue(bits);
    var t := BitsToHexByteString(bits);
    TwoDigitsUnique(t[0], t[1], s[0], s[1]);
    assert t == [t[0], t[1]] && s == [s[0], s[1]];
  }

  /** Two hex digits are determined by their two-digit value. */
  lemma TwoDigitsUnique(a: char, b: char, c: char, d: char)
    requires IsHexDigit(a) && IsHexDigit(b) && IsHexDigit(c) && IsHexDigit(d)
    requires 16 * HexValue(a) + HexValue(b) == 16 * HexValue(c) + HexValue(d)
    ensures a == c && b == d
  {
    assert HexValue(a) < 16 && HexValue(b) < 16 && HexValue(c) < 16 && HexValue(d) < 16;
    assert HexValue(a) == HexValue(c);
  }

  /** nibbleInvert: the hex digit of the complemented nibble; 'X' for any
      character that is not an upper-case hex digit. */
  function NibbleInvert(c: char): (r: char)
    ensures IsHexDigit(c) ==> IsHexDigit(r) && HexValue(r) == 15 - HexValue(c)
    ensures !IsHexDigit(c) ==> r == 'X'
  {
    match c
    case '0' => 'F'
    case '1' => 'E'
    case '2' => 'D'
    case '3' => 'C'
    case '4' => 'B'
    case '5' => 'A'
    case '6' => '9'
    case '7' => '8'
    case '8' => '7'
    case '9' => '6'
    case 'A' => '5'
    case 'B' => '4'
    case 'C' => '3'
    case 'D' => '2'
    case 'E' => '1'
    case 'F' => '0'
    case _ => 'X'
  }

  /** Inverting the digit is inverting its four bits. */
  lemma NibbleInvertIsBitInversion(c: char)
    requires IsHexDigit(c)
    ensures NibbleToBits(NibbleInvert(c)) == InvertBitList(NibbleToBits(c))
  {
    var b := NibbleToBits(c);
    NibbleBitsValue(c);
    NibbleBitsValue(NibbleInvert(c));
    MsbValueInvert(b);
    MsbValueInjective(NibbleToBits(NibbleInvert(c)), InvertBitList(b));
  }

  /** hexStringToDec as written: its reverse flag lands in the invert
      parameter of bitsToDec, so setting it complements the byte. */
  function HexStringToDec(s: string, reverse: bool): (v: int)
    requires s == "0" || |s| >= 2
    ensures |s| >= 2 && IsHexDigit(s[0]) && IsHexDigit(s[1]) ==>
      v == (if reverse then 255 - (16 * HexValue(s[0]) + HexValue(s[1])) else 16 * HexValue(s[0]) + HexValue(s[1]))
  {
    if |s| >= 2 then HexByteValue(s); assert Pow2(8) == 256; BitsToDec(HexByteToBits(s), reverse, false)
    else BitsToDec(HexByteToBits(s), reverse, false)
  }

  /** hexStringToDec as its parameter name says: reverse selects LSB-first reading. */
  function HexStringToDecLsbFirst(s: string, reverse: bool): (v: int)
    requires s == "0" || |s| >= 2
    ensures |s| >= 2 && IsHexDigit(s[0]) && IsHexDigit(s[1]) && !reverse ==>
      v == 16 * HexValue(s[0]) + HexValue(s[1])
  {
    if |s| >= 2 then HexByteValue(s); BitsToDec(HexByteToBits(s), false, reverse)
    else BitsToDec(HexByteToBits(s), false, reverse)
  }

  /** A byte written out LSB first as hex is read back to its value by the
      LSB-first reading. */
  lemma LsbFirstRoundTrip(bits: seq<Bit>)
    requires |bits| == 8 && IsBinary(bits)
    ensures HexStringToDecLsbFirst(BitsToHexByteString(Reverse(bits)), true) == BitsToDec(bits, false, false)
  {
    ReverseBinary(bits);
    HexByteRoundTrip(Reverse(bits));
    ReverseReverse(bits);
  }

  /** The byte 0x01 with reverse set: the code as written returns its
      complement 254, where the LSB-first reading gives 128. */
  lemma HexStringToDecReverseDiscrepancy()
    ensures HexStringToDec("01", true) == 254
    ensures HexStringToDecLsbFirst("01", true) == 128
  {
    var b := HexByteToBits("01");
    var r := HexByteToBits("80");
    assert b == NibbleToBits('0') + NibbleToBits('1');
    assert r == NibbleToBits('8') + NibbleToBits('0');
    assert Reverse(b) == r by {
      assert b == [Zero, Zero, Zero, Zero, Zero, Zero, Zero, One];
      assert r == [One, Zero, Zero, Zero, Zero, Zero, Zero, Zero];
    }
    HexByteValue("80");
    assert HexStringToDecLsbFirst("01", true) == BitsToDec(r, false, false);
  }
}

=== FILE: odometer.dfy ===
/**
 * The enumeration order of Python's itertools.product, stated over index
 * tuples: product(range(r0), range(r1), ..., range(rk)) lists every tuple of
 * in-range digits once, in lexicographic order, the rightmost digit varying
 * fastest.  A product of arbitrary lists is this enumeration with each digit
 * used as an index into its list.
 */
module Odometer {

  /** Strict lexicographic order on digit tuples. */
  predicate LexLess(a: seq<nat>, b: seq<nat>) {
    |a| > 0 && |b| > 0 && (a[0] < b[0] || (a[0] == b[0] && LexLess(a[1..], b[1..])))
  }

  predicate InBounds(d: seq<nat>, radices: seq<nat>) {
    |d| == |radices| && forall k :: 0 <= k < |d| ==> d[k] < radices[k]
  }

  predicate StrictlySorted(r: seq<seq<nat>>) {
    forall i, j :: 0 <= i < j < |r| ==> LexLess(r[i], r[j])
  }

  /** The number of tuples: the product of the radices. */
  function Count(radices: seq<nat>): nat {
    if |radices| == 0 then 1 else radices[0] * Count(radices[1..])
  }

  /** The tuples of ts, each with the digit i put in front. */
  function Prefixed(i: nat, ts: seq<seq<nat>>): (r: seq<seq<nat>>)
    ensures |r| == |ts|
    ensures forall k :: 0 <= k < |ts| ==> r[k] == [i] + ts[k]
  {
    seq(|ts|, k requires 0 <= k < |ts| => [i] + ts[k])
  }

  /** One block per leading digit lo .. hi - 1, in increasing order. */
  function Blocks(lo: nat, hi: nat, ts: seq<seq<nat>>): seq<seq<nat>>
    decreases hi - lo
  {
    if lo >= hi then [] else Prefixed(lo, ts) + Blocks(lo + 1, hi, ts)
  }

  /** product(range(r0), ..., range(rk)) in the order itertools.product
      yields it. */
  function Enumerate(radices: seq<nat>): seq<seq<nat>>
    decreases |radices|
  {
    if |radices| == 0 then [[]] else Blocks(0, radices[0], Enumerate(radices[1..]))
  }

  lemma BlocksLength(lo: nat, hi: nat, ts: seq<seq<nat>>)
    ensures |Blocks(lo, hi, ts)| == (if lo <= hi then hi - lo else 0) * |ts|
    decreases hi - lo
  {
    if lo < hi {
      BlocksLength(lo + 1, hi, ts);
      assert (hi - lo) * |ts| == |ts| + (hi - lo - 1) * |ts|;
    }
  }

  /** There are as many tuples as the product of the radices. */
  lemma {:induction false} EnumerateLength(radices: seq<nat>)
    ensures |Enumerate(radices)| == Count(radices)
    decreases |radices|
  {
    if |radices| > 0 {
      EnumerateLength(radices[1..]);
      BlocksLength(0, radices[0], Enumerate(radices[1..]));
    }
  }

  /** A block's tuples are the prefixed tuples with lead digit lo .. hi - 1. */
  lemma {:induction false} BlocksMembers(lo: nat, hi: nat, ts: seq<seq<nat>>, d: seq<nat>)
    ensures d in Blocks(lo, hi, ts) <==> |d| > 0 && lo <= d[0] < hi && d[1..] in ts
    decreases hi - lo
  {
    if lo < hi {
      BlocksMembers(lo + 1, hi, ts, d);
      if |d| > 0 && d[0] == lo && d[1..] in ts {
        var k :| 0 <= k < |ts| && ts[k] == d[1..];
        assert Prefixed(lo, ts)[k] == d;
      }
      if d in Prefixed(lo, ts) {
        var k :| 0 <= k < |ts| && Prefixed(lo, ts)[k] == d;
        assert d[1..] == ts[k];
      }
    }
  }

  /** The enumeration holds exactly the in-range tuples. */
  lemma {:induction false} EnumerateMembers(radices: seq<nat>, d: seq<nat>)
    ensures d in Enumerate(radices) <==> InBounds(d, radices)
    decreases |radices|
  {
    if |radices| > 0 {
      var ts := Enumerate(radices[1..]);
      BlocksMembers(0, radices[0], ts, d);
      if |d| > 0 {
        EnumerateMembers(radices[1..], d[1..]);
        if InBounds(d[1..], radices[1..]) && d[0] < radices[0] {
          forall k | 0 <= k < |d| ensures d[k] < radices[k] {
            if k > 0 {
              assert d[k] == d[1..][k - 1];
            }
          }
        }
        if InBounds(d, radices) {
          forall k | 0 <= k < |d| - 1 ensures d[1..][k] < radices[1..][k] {
            assert d[k + 1] < radices[k + 1];
          }
        }
      }
    }
  }

  lemma {:induction false} EnumerateInBounds(radices: seq<nat>)
    ensures forall n :: 0 <= n < |Enumerate(radices)| ==> InBounds(Enumerate(radices)[n], radices)
  {
    forall n | 0 <= n < |Enumerate(radices)| ensures InBounds(Enumerate(radices)[n], radices) {
      EnumerateMembers(radices, Enumerate(radices)[n]);
    }
  }

  lemma PrefixedSorted(i: nat, ts: seq<seq<nat>>)
    requires StrictlySorted(ts)
    ensures StrictlySorted(Prefixed(i, ts))
  {
    var p := Prefixed(i, ts);
    forall a, b | 0 <= a < b < |p| ensures LexLess(p[a], p[b]) {
      assert p[a][1..] == ts[a] && p[b][1..] == ts[b];
    }
  }

  /** Every tuple of a block from lo on starts with at least lo. */
  lemma {:induction false} BlocksLeadDigits(lo: nat, hi: nat, ts: seq<seq<nat>>)
    ensures forall n :: 0 <= n < |Blocks(lo, hi, ts)| ==>
      |Blocks(lo, hi, ts)[n]| > 0 && lo <= Blocks(lo, hi, ts)[n][0]
  {
    forall n | 0 <= n < |Blocks(lo, hi, ts)| ensures |Blocks(lo, hi, ts)[n]| > 0 && lo <= Blocks(lo, hi, ts)[n][0] {
      BlocksMembers(lo, hi, ts, Blocks(lo, hi, ts)[n]);
    }
  }

  lemma {:induction false} BlocksSorted(lo: nat, hi: nat, ts: seq<seq<nat>>)
    requires StrictlySorted(ts)
    ensures StrictlySorted(Blocks(lo, hi, ts))
    decreases hi - lo
  {
    if lo < hi {
      var p := Prefixed(lo, ts);
      var rest := Blocks(lo + 1, hi, ts);
      PrefixedSorted(lo, ts);
      BlocksSorted(lo + 1, hi, ts);
      BlocksLeadDigits(lo + 1, hi, ts);
      var r := p + rest;
      forall a, b | 0 <= a < b < |r| ensures LexLess(r[a], r[b]) {
        if b < |p| {
          assert r[a] == p[a] && r[b] == p[b];
        } else if a < |p| {
          assert r[a] == p[a] && r[b] == rest[b - |p|];
        } else {
          assert r[a] == rest[a - |p|] && r[b] == rest[b - |p|];
        }
      }
    }
  }

  /** Later tuples are lexicographically larger: the rightmost digit varies
      fastest, the leftmost slowest. */
  lemma {:induction false} EnumerateSorted(radices: seq<nat>)
    ensures StrictlySorted(Enumerate(radices))
    decreases |radices|
  {
    if |radices| > 0 {
      EnumerateSorted(radices[1..]);
      BlocksSorted(0, radices[0], Enumerate(radices[1..]));
    }
  }

  /** A product with a zero factor is zero. */
  lemma {:induction false} CountZero(radices: seq<nat>, k: nat)
    requires k < |radices| && radices[k] == 0
    ensures Count(radices) == 0
  {
    if k > 0 {
      CountZero(radices[1..], k - 1);
    }
  }
}

=== FILE: polys.dfy ===
/**
 * The polynomial registry of crc_custom.py: common CRC generator
 * polynomials, written most significant coefficient first with the leading
 * x^n term included, and MASTER_POLY_LIST, which files them by CRC length.
 */
module Polynomials {
  import opened BitLists
  import opened CrcEngine

  /** A polynomial written as a string of '0' and '1' characters. */
  function BitString(s: string): (r: seq<Bit>)
    ensures |r| == |s| && IsBinary(r)
    ensures forall k :: 0 <= k < |s| ==> (r[k] == One <==> s[k] == '1')
  {
    seq(|s|, k requires 0 <= k < |s| => if s[k] == '1' then One else Zero)
  }

  const Poly3Gsm: seq<Bit> := BitString("1011")

  const Poly4Itu: seq<Bit> := BitString("10011")

  const Poly5Epc: seq<Bit> := BitString("101001")
  const Poly5Itu: seq<Bit> := BitString("110101")
  const Poly5Usb: seq<Bit> := BitString("100101")

  const Poly6Cdma2000A: seq<Bit> := BitString("1100111")
  const Poly6Cdma2000B: seq<Bit> := BitString("1000111")
  const Poly6Darc: seq<Bit> := BitString("1011001")
  const Poly6Gsm: seq<Bit> := BitString("1101111")
  const Poly6Itu: seq<Bit> := BitString("1000011")

  const Poly7MmcSd: seq<Bit> := BitString("10001001")
  const Poly7Mvb: seq<Bit> := BitString("11100101")

  const Poly8Dvb: seq<Bit> := BitString("111010101")
  const Poly8Autosar: seq<Bit> := BitString("100101111")
  const Poly8Bluetooth: seq<Bit> := BitString("110100111")
  const Poly8Ccitt: seq<Bit> := BitString("100000111")
  const Poly8Maxim: seq<Bit> := BitString("100110001")
  const Poly8Darc: seq<Bit> := BitString("100111001")
  const Poly8GsmB: seq<Bit> := BitString("101001001")
  const Poly8SaeJ1850: seq<Bit> := BitString("100011101")
  const Poly8Wcdma: seq<Bit> := BitString("110011011")

  const Poly10Atm: seq<Bit> := BitString("11000110011")
  const Poly10Cdma2000: seq<Bit> := BitString("11111011001")
  const Poly10Gsm: seq<Bit> := BitString("10101110101")

  const Poly11Flexray: seq<Bit> := BitString("101110000101")

  const Poly12: seq<Bit> := BitString("1100000001111")
  const Poly12Cdma2000: seq<Bit> := BitString("1111100010011")
  const Poly12Gsm: seq<Bit> := BitString("1110100110001")

  const Poly13Bbc: seq<Bit> := BitString("11110011110101")

  const Poly14Darc: seq<Bit> := BitString("100100000000101")
  const Poly14Gsm: seq<Bit> := BitString("110000000101101")

  const Poly15Can: seq<Bit> := BitString("1100010110011001")
  const Poly15Mpt1327: seq<Bit> := BitString("1110100000010101")

  const Poly16Chakravarty: seq<Bit> := BitString("10010111100010101")
  const Poly16Arinc: seq<Bit> := BitString("11010000000101011")
  const Poly16Ccitt: seq<Bit> := BitString("10001000000100001")
  const Poly16Cdma2000: seq<Bit> := BitString("11100100001100111")
  const Poly16Dect: seq<Bit> := BitString("10000010110001001")
  const Poly16T10Dif: seq<Bit> := BitString("11000101110110111")
  const Poly16Dnp: seq<Bit> := BitString("10011110101100101")
  const Poly16Ibm: seq<Bit> := BitString("11000000000000101")
  const Poly16OpenSafetyA: seq<Bit> := BitString("10101100100110101")
  const Poly16OpenSafetyB: seq<Bit> := BitString("10111010101011011")
  const Poly16Profibus: seq<Bit> := BitString("10001110111001111")

  const Poly17Can: seq<Bit> := BitString("110110100001011011")

  const Poly21Can: seq<Bit> := BitString("1100000010100010011001")

  const Poly24Flexray: seq<Bit> := BitString("1010111010110110111001011")
  const Poly24Radix64: seq<Bit> := BitString("1100001100100110011111011")

  const Poly30Cdma: seq<Bit> := BitString("1100000001100001011100111000111")

  const Poly32: seq<Bit> := BitString("100000100110000010001110110110111")
  const Poly32C: seq<Bit> := BitString("100011110110111000110111101000001")
  const Poly32K: seq<Bit> := BitString("101110100000110111000110011010111")
  const Poly32K2: seq<Bit> := BitString("100110010010110000011010010011001")
  const Poly32Q: seq<Bit> := BitString("110000001010000010100000110101011")

  /** The 40- and 64-bit entries, which the source builds from the hex
      values 0x0004820009, 0x42F0E1EBA9EA3693 and 0x1B below a leading 1,
      written out bit by bit. */
  const Poly40Gsm: seq<Bit> := [One] + BitString("0000000000000100100000100000000000001001")

  const Poly64Ecma: seq<Bit> := [One] + BitString("0100001011110000111000011110101110101001111010100011011010010011")
  const Poly64Iso: seq<Bit> := [One] + BitString("0000000000000000000000000000000000000000000000000000000000011011")

  /** MASTER_POLY_LIST[n]: the registered polynomials of CRC length n, for
      n from 0 to 64 (a larger index is past the end of the list); most
      lengths have none. */
  function PolyList(n: nat): seq<seq<Bit>>
    requires n <= 64
  {
    match n
    case 3 => [Poly3Gsm]
    case 4 => [Poly4Itu]
    case 5 => [Poly5Epc, Poly5Itu, Poly5Usb]
    case 6 => [Poly6Cdma2000A, Poly6Cdma2000B, Poly6Darc, Poly6Gsm, Poly6Itu]
    case 7 => [Poly7MmcSd, Poly7Mvb]
    case 8 => [Poly8Dvb, Poly8Autosar, Poly8Bluetooth, Poly8Ccitt, Poly8Maxim, Poly8Darc, Poly8GsmB, Poly8SaeJ1850, Poly8Wcdma]
    case 10 => [Poly10Atm, Poly10Cdma2000, Poly10Gsm]
    case 11 => [Poly11Flexray]
    case 12 => [Poly12, Poly12Cdma2000, Poly12Gsm]
    case 13 => [Poly13Bbc]
    case 14 => [Poly14Darc, Poly14Gsm]
    case 15 => [Poly15Can, Poly15Mpt1327]
    case 16 => [Poly16Chakravarty, Poly16Arinc, Poly16Ccitt, Poly16Cdma2000, Poly16Dect, Poly16T10Dif, Poly16Dnp, Poly16Ibm, Poly16OpenSafetyA, Poly16OpenSafetyB, Poly16Profibus]
    case 17 => [Poly17Can]
    case 21 => [Poly21Can]
    case 24 => [Poly24Flexray, Poly24Radix64]
    case 30 => [Poly30Cdma]
    case 32 => [Poly32, Poly32C, Poly32K, Poly32K2, Poly32Q]
    case 40 => [Poly40Gsm]
    case 64 => [Poly64Ecma, Poly64Iso]
    case _ => []
  }

  /** Every registered polynomial of CRC length n has n + 1 coefficients,
      all 0 or 1, the first being the leading x^n term. */
  predicate WellFormedEntry(n: nat, polys: seq<seq<Bit>>) {
    forall j :: 0 <= j < |polys| ==> |polys[j]| == n + 1 && polys[j][0] == One && IsBinary(polys[j])
  }

  lemma Entry3WellFormed(n: nat)
    requires n == 3
    ensures WellFormedEntry(n, PolyList(n))
  {
  }

  lemma Entry4WellFormed(n: nat)
    requires n == 4
    ensures WellFormedEntry(n, PolyList(n))
  {
  }

  lemma Entry5WellFormed(n: nat)
    requires n == 5
    ensures WellFormedEntry(n, PolyList(n))
  {
  }

  lemma Entry6WellFormed(n: nat)
    requires n == 6
    ensures WellFormedEntry(n, PolyList(n))
  {
  }

  lemma Entry7WellFormed(n: nat)
    requires n == 7
    ensures WellFormedEntry(n, PolyList(n))
  {
  }

  lemma Entry8WellFormed(n: nat)
    requires n == 8
    ensures WellFormedEntry(n, PolyList(n))
  {
  }

  lemma Entry10WellFormed(n: nat)
    requires n == 10
    ensures WellFormedEntry(n, PolyList(n))
  {
  }

  lemma Entry11WellFormed(n: nat)
    requires n == 11
    ensures WellFormedEntry(n, PolyList(n))
  {
  }

  lemma Entry12WellFormed(n: nat)
    requires n == 12
    ensures WellFormedEntry(n, PolyList(n))
  {
  }

  lemma Entry13WellFormed(n: nat)
    requires n == 13
    ensures WellFormedEntry(n, PolyList(n))
  {
  }

  lemma Entry14WellFormed(n: nat)
    requires n == 14
    ensures WellFormedEntry(n, PolyList(n))
  {
  }

  lemma Entry15WellFormed(n: nat)
    requires n == 15
    ensures WellFormedEntry(n, PolyList(n))
  {
  }

  lemma Entry16WellFormed(n: nat)
    requires n == 16
    ensures WellFormedEntry(n, PolyList(n))
  {
  }

  lemma Entry17WellFormed(n: nat)
    requires n == 17
    ensures WellFormedEntry(n, PolyList(n))
  {
  }

  lemma Entry21WellFormed(n: nat)
    requires n == 21
    ensures WellFormedEntry(n, PolyList(n))
  {
  }

  lemma Entry24WellFormed(n: nat)
    requires n == 24
    ensures WellFormedEntry(n, PolyList(n))
  {
  }

  lemma Entry30WellFormed(n: nat)
    requires n == 30
    ensures WellFormedEntry(n, PolyList(n))
  {
  }

  lemma Entry32WellFormed(n: nat)
    requires n == 32
    ensures WellFormedEntry(n, PolyList(n))
  {
  }

  lemma Entry40WellFormed(n: nat)
    requires n == 40
    ensures WellFormedEntry(n, PolyList(n))
  {
    assert |Poly40Gsm| == 41 && Poly40Gsm[0] == One;
  }

  lemma Entry64WellFormed(n: nat)
    requires n == 64
    ensures WellFormedEntry(n, PolyList(n))
  {
    assert |Poly64Ecma| == 65 && Poly64Ecma[0] == One;
    assert |Poly64Iso| == 65 && Poly64Iso[0] == One;
  }

  /** Each entry holds polynomials of exactly its CRC length. */
  lemma RegistryWellFormed(n: nat)
    requires n <= 64
    ensures WellFormedEntry(n, PolyList(n))
  {
    match n
    case 3 => Entry3WellFormed(n);
    case 4 => Entry4WellFormed(n);
    case 5 => Entry5WellFormed(n);
    case 6 => Entry6WellFormed(n);
    case 7 => Entry7WellFormed(n);
    case 8 => Entry8WellFormed(n);
    case 10 => Entry10WellFormed(n);
    case 11 => Entry11WellFormed(n);
    case 12 => Entry12WellFormed(n);
    case 13 => Entry13WellFormed(n);
    case 14 => Entry14WellFormed(n);
    case 15 => Entry15WellFormed(n);
    case 16 => Entry16WellFormed(n);
    case 17 => Entry17WellFormed(n);
    case 21 => Entry21WellFormed(n);
    case 24 => Entry24WellFormed(n);
    case 30 => Entry30WellFormed(n);
    case 32 => Entry32WellFormed(n);
    case 40 => Entry40WellFormed(n);
    case 64 => Entry64WellFormed(n);
    case _ =>
  }

  /** The CRC lengths the registry knows. */
  lemma RegistryLengths(n: nat)
    requires n <= 64
    ensures PolyList(n) != [] <==>
      n in {3, 4, 5, 6, 7, 8, 10, 11, 12, 13, 14, 15, 16, 17, 21, 24, 30, 32, 40, 64}
  {
  }

  const Crc8Buf0: seq<Bit> := [One, One, Zero, Zero, Zero, Zero, One, One, Zero, Zero, Zero, Zero, Zero, Zero, Zero, Zero]
  const Crc8Buf1: seq<Bit> := [Zero, One, Zero, Zero, Zero, Zero, Zero, Zero, One, Zero, Zero, Zero, Zero, Zero, Zero, Zero]
  const Crc8Buf2: seq<Bit> := [Zero, Zero, Zero, Zero, Zero, Zero, Zero, One, Zero, One, Zero, Zero, Zero, Zero, Zero, Zero]
  const Crc8Buf8: seq<Bit> := [Zero, Zero, Zero, Zero, Zero, Zero, Zero, Zero, Zero, One, Zero, Zero, Zero, One, One, One]

  lemma Crc8CcittPoly()
    ensures Poly8Ccitt == [One, Zero, Zero, Zero, Zero, Zero, One, One, One]
  {
  }

  /** The three division steps that act on the buffer for the byte 0xC3,
      at its set bits 0, 1 and 7. */
  lemma Crc8CcittStep0()
    ensures XorAt(Crc8Buf0, Poly8Ccitt, 0) == Crc8Buf1
  {
    Crc8CcittPoly();
  }

  lemma Crc8CcittStep1()
    ensures XorAt(Crc8Buf1, Poly8Ccitt, 1) == Crc8Buf2
  {
    Crc8CcittPoly();
  }

  lemma Crc8CcittStep7()
    ensures XorAt(Crc8Buf2, Poly8Ccitt, 7) == Crc8Buf8
  {
    Crc8CcittPoly();
  }

  /** One division step unrolled: a set bit adds the polynomial, a clear
      bit leaves the buffer as it is. */
  lemma DivideFromUnroll(buf: seq<Bit>, poly: seq<Bit>, i: nat, n: nat)
    requires i < n <= |buf| && n + |poly| <= |buf| + 1
    ensures buf[i] == One ==> DivideFrom(buf, poly, i, n) == DivideFrom(XorAt(buf, poly, i), poly, i + 1, n)
    ensures buf[i] != One ==> DivideFrom(buf, poly, i, n) == DivideFrom(buf, poly, i + 1, n)
  {
  }

  /** Positions 0 and 1 of the division. */
  lemma Crc8CcittDivisionHead()
    ensures Divide(Crc8Buf0, Poly8Ccitt, 8) == DivideFrom(Crc8Buf2, Poly8Ccitt, 2, 8)
  {
    var p := Poly8Ccitt;
    Crc8CcittPoly();
    calc {
      Divide(Crc8Buf0, p, 8);
      { DivideFromUnroll(Crc8Buf0, p, 0, 8); Crc8CcittStep0(); }
      DivideFrom(Crc8Buf1, p, 1, 8);
      { DivideFromUnroll(Crc8Buf1, p, 1, 8); Crc8CcittStep1(); }
      DivideFrom(Crc8Buf2, p, 2, 8);
    }
  }

  /** A run of positions holding no 1 leaves the division unchanged. */
  lemma {:induction false} DivideFromSkipsZeros(buf: seq<Bit>, poly: seq<Bit>, i: nat, j: nat, n: nat)
    requires i <= j <= n <= |buf| && n + |poly| <= |buf| + 1
    requires forall k :: i <= k < j ==> buf[k] != One
    ensures DivideFrom(buf, poly, i, n) == DivideFrom(buf, poly, j, n)
    decreases j - i
  {
    if i < j {
      DivideFromUnroll(buf, poly, i, n);
      DivideFromSkipsZeros(buf, poly, i + 1, j, n);
    }
  }

  /** Positions 2 to 6 hold zeros; position 7 adds the polynomial. */
  lemma Crc8CcittDivisionTail()
    ensures DivideFrom(Crc8Buf2, Poly8Ccitt, 2, 8) == Crc8Buf8
  {
    var p := Poly8Ccitt;
    Crc8CcittPoly();
    assert forall k :: 2 <= k < 7 ==> Crc8Buf2[k] != One;
    DivideFromSkipsZeros(Crc8Buf2, p, 2, 7, 8);
    DivideFromUnroll(Crc8Buf2, p, 7, 8);
    Crc8CcittStep7();
  }

  lemma Crc8CcittDivision()
    ensures Divide(Crc8Buf0, Poly8Ccitt, 8) == Crc8Buf8
  {
    Crc8CcittDivisionHead();
    Crc8CcittDivisionTail();
  }

  /** The byte 0xC3 and the expected CRC 0x47 as bit lists. */
  lemma Crc8CcittLiterals()
    ensures BitString("11000011") == [One, One, Zero, Zero, Zero, Zero, One, One]
    ensures BitString("01000111") == [Zero, One, Zero, Zero, Zero, One, One, One]
    ensures Crc8Buf8[8..] == BitString("01000111")
  {
    var a, b := "11000011", "01000111";
    assert a[0] == '1' && a[1] == '1' && a[2] == '0' && a[3] == '0' && a[4] == '0' && a[5] == '0' && a[6] == '1' && a[7] == '1';
    assert b[0] == '0' && b[1] == '1' && b[2] == '0' && b[3] == '0' && b[4] == '0' && b[5] == '1' && b[6] == '1' && b[7] == '1';
  }

  /** A known answer: CRC-8 with the CCITT polynomial x^8 + x^2 + x + 1,
      zero initial value and no reflection, of the byte 0xC3 is 0x47. */
  lemma Crc8CcittKnownAnswer()
    ensures CrcCompute(BitString("11000011"), PlainParams(Poly8Ccitt)) == BitString("01000111")
  {
    var data := BitString("11000011");
    var p := Poly8Ccitt;
    var buf := data + Repeat(Zero, 8);
    Crc8CcittLiterals();
    assert buf == Crc8Buf0;
    assert CrcCompute(data, PlainParams(p)) == Divide(buf, p, 8)[8..] by {
      Crc8CcittPoly();
      PlainCrcUnfold(data, p);
    }
    Crc8CcittDivision();
  }
}

=== FILE: search.dfy ===
/**
 * CrcDefinition.crcIterate of crc_custom.py: a brute-force search over the
 * Cartesian product of candidate CRC settings, scoring each candidate by how
 * many frames check, and selecting the first candidate with the best score.
 */
module Search {
  import opened BitLists
  import opened CrcEngine
  import opened Polynomials
  import opened Binding
  import opened Odometer

  /** A CrcDefinition whose fields hold lists of candidate values; the
      polynomials are the registry's entries of length crcLen. */
  datatype CrcCandidates = CrcCandidates(
    crcLen: nat,
    inputBitOrders: seq<BitOrder>,
    initVals: seq<Bit>,
    reverseFinals: seq<FinalReversal>,
    finalXORs: seq<seq<Bit>>,
    padTypes: seq<PadType>,
    padCounts: seq<int>,
    padVals: seq<Bit>,
    crcStarts: seq<nat>,
    crcStops: seq<int>,
    dataStarts: seq<nat>,
    dataStops: seq<int>)

  /** The lengths of the twelve factors of the product, in the order
      crcIterate passes them to itertools.product. */
  function Radices(c: CrcCandidates): (r: seq<nat>)
    requires c.crcLen <= 64
    ensures |r| == 12
  {
    [|PolyList(c.crcLen)|, |c.inputBitOrders|, |c.initVals|, |c.reverseFinals|, |c.finalXORs|,
     |c.padTypes|, |c.padCounts|, |c.padVals|, |c.crcStarts|, |c.crcStops|, |c.dataStarts|, |c.dataStops|]
  }

  /** The candidate that picks entry d[k] from the k-th factor. */
  function Candidate(c: CrcCandidates, d: seq<nat>): (def: CrcDefinition)
    requires c.crcLen <= 64 && InBounds(d, Radices(c))
    ensures def.crcLen == c.crcLen && def.params.crcPoly in PolyList(c.crcLen)
  {
    var r := Radices(c);
    assert forall k :: 0 <= k < 12 ==> d[k] < r[k];
    CrcDefinition(
      c.crcLen,
      CrcParams(PolyList(c.crcLen)[d[0]], c.inputBitOrders[d[1]], c.initVals[d[2]], c.reverseFinals[d[3]],
                c.finalXORs[d[4]], c.padTypes[d[5]], c.padCounts[d[6]], c.padVals[d[7]]),
      c.dataStarts[d[10]], c.dataStops[d[11]], c.crcStarts[d[8]], c.crcStops[d[9]])
  }

  /** The solution space: one candidate per index tuple of the product, in
      the product's order. */
  function SolutionSpace(c: CrcCandidates): (space: seq<CrcDefinition>)
    requires c.crcLen <= 64
    ensures |space| == Count(Radices(c))
    ensures forall n :: 0 <= n < |space| ==> space[n].params.crcPoly in PolyList(c.crcLen)
  {
    var tuples := Enumerate(Radices(c));
    EnumerateLength(Radices(c));
    EnumerateInBounds(Radices(c));
    seq(|tuples|, n requires 0 <= n < |tuples| => Candidate(c, tuples[n]))
  }

  /** Every combination of candidate values appears in the space, at the
      position of its index tuple in the product's order. */
  lemma SolutionSpaceCovers(c: CrcCandidates, d: seq<nat>)
    requires c.crcLen <= 64 && InBounds(d, Radices(c))
    ensures Candidate(c, d) in SolutionSpace(c)
  {
    EnumerateMembers(Radices(c), d);
    var n :| 0 <= n < |Enumerate(Radices(c))| && Enumerate(Radices(c))[n] == d;
    assert SolutionSpace(c)[n] == Candidate(c, d);
  }

  /** Whether a frame checks under a candidate.  A candidate whose CRC the
      source cannot compute on this frame (an X in the data range, a short
      finalXOR, a negative stop) counts as a miss. */
  predicate Matches(def: CrcDefinition, frame: seq<Bit>) {
    CrcRanges(def) && CrcDefined(CrcDataField(def, frame), def.params) && CheckCRC(def, frame)
  }

  /** successList: for each frame, whether it checks. */
  function SuccessList(def: CrcDefinition, frames: seq<seq<Bit>>): (r: seq<bool>)
    ensures |r| == |frames|
    ensures forall k :: 0 <= k < |frames| ==> (r[k] <==> Matches(def, frames[k]))
  {
    seq(|frames|, k requires 0 <= k < |frames| => Matches(def, frames[k]))
  }

  /** sum() over a list of booleans: the number of true entries. */
  function CountTrue(bs: seq<bool>): (n: nat)
    ensures n <= |bs|
  {
    if |bs| == 0 then 0 else (if bs[0] then 1 else 0) + CountTrue(bs[1..])
  }

  /** The count reaches the length exactly when every entry is true, and
      is zero exactly when none is. */
  lemma {:induction false} CountTrueExtremes(bs: seq<bool>)
    ensures CountTrue(bs) == |bs| <==> forall k :: 0 <= k < |bs| ==> bs[k]
    ensures CountTrue(bs) == 0 <==> forall k :: 0 <= k < |bs| ==> !bs[k]
  {
    if |bs| > 0 {
      CountTrueExtremes(bs[1..]);
      assert forall k :: 1 <= k < |bs| ==> bs[k] == bs[1..][k - 1];
    }
  }

  /** sum(successList): the number of frames that check. */
  function MatchCount(def: CrcDefinition, frames: seq<seq<Bit>>): (n: nat)
    ensures n <= |frames|
  {
    CountTrue(SuccessList(def, frames))
  }

  /** A candidate scores every frame exactly when every frame checks, and
      none exactly when no frame does. */
  lemma MatchCountExtremes(def: CrcDefinition, frames: seq<seq<Bit>>)
    ensures MatchCount(def, frames) == |frames| <==> forall k :: 0 <= k < |frames| ==> Matches(def, frames[k])
    ensures MatchCount(def, frames) == 0 <==> forall k :: 0 <= k < |frames| ==> !Matches(def, frames[k])
  {
    CountTrueExtremes(SuccessList(def, frames));
  }

  /** successCount: one score per candidate. */
  function Scores(space: seq<CrcDefinition>, frames: seq<seq<Bit>>): (counts: seq<nat>)
    ensures |counts| == |space|
    ensures forall n :: 0 <= n < |space| ==> counts[n] == MatchCount(space[n], frames) <= |frames|
  {
    seq(|space|, n requires 0 <= n < |space| => MatchCount(space[n], frames))
  }

  /** list.index: the first position holding x. */
  function IndexOf(s: seq<nat>, x: nat): (i: nat)
    requires x in s
    ensures i < |s| && s[i] == x
    ensures forall k :: 0 <= k < i ==> s[k] != x
  {
    if s[0] == x then 0 else 1 + IndexOf(s[1..], x)
  }

  /** successCount.index(max(successCount)): the first position of the
      largest score. */
  function IndexOfBest(counts: seq<nat>): (i: nat)
    requires |counts| > 0
    ensures i < |counts|
    ensures forall k :: 0 <= k < |counts| ==> counts[k] <= counts[i]
    ensures forall k :: 0 <= k < i ==> counts[k] < counts[i]
  {
    IndexOf(counts, SeqMax(counts))
  }

  /** Being a maximum that no earlier position reaches pins the position
      down: it is the one IndexOfBest picks. */
  lemma IndexOfBestUnique(counts: seq<nat>, i: nat)
    requires i < |counts|
    requires forall k :: 0 <= k < |counts| ==> counts[k] <= counts[i]
    requires forall k :: 0 <= k < i ==> counts[k] < counts[i]
    ensures IndexOfBest(counts) == i
  {
    var b := IndexOfBest(counts);
    assert counts[b] == counts[i];
    assert !(b < i) && !(i < b);
  }

  /** What crcIterate finds: the position of the best candidate in the
      product, the candidate itself and its number of checking frames. */
  datatype SearchResult = SearchResult(index: nat, best: CrcDefinition, successes: nat)

  predicate NonEmptyFactors(c: CrcCandidates)
    requires c.crcLen <= 64
  {
    forall k :: 0 <= k < 12 ==> Radices(c)[k] > 0
  }

  /** The all-zeros tuple is in range, so the space is non-empty, exactly
      when every factor is. */
  lemma {:induction false} SolutionSpaceNonEmpty(c: CrcCandidates)
    requires c.crcLen <= 64
    ensures |SolutionSpace(c)| > 0 <==> NonEmptyFactors(c)
  {
    var r := Radices(c);
    EnumerateLength(r);
    if NonEmptyFactors(c) {
      var zeros: seq<nat> := seq(12, k => 0);
      EnumerateMembers(r, zeros);
    } else {
      var k :| 0 <= k < 12 && r[k] == 0;
      CountZero(r, k);
    }
  }

  /** crcIterate with its evident intent: score every candidate against
      every frame and return the first best one.  An empty factor makes the
      space empty and max() raise, hence the precondition. */
  function CrcIterate(c: CrcCandidates, frames: seq<seq<Bit>>): (res: SearchResult)
    requires c.crcLen <= 64 && NonEmptyFactors(c)
    ensures res.index < |SolutionSpace(c)| && res.best == SolutionSpace(c)[res.index]
    ensures res.successes == MatchCount(res.best, frames) <= |frames|
    ensures forall n :: 0 <= n < |SolutionSpace(c)| ==> MatchCount(SolutionSpace(c)[n], frames) <= res.successes
    ensures forall n :: 0 <= n < res.index ==> MatchCount(SolutionSpace(c)[n], frames) < res.successes
    ensures res.best.params.crcPoly in PolyList(c.crcLen)
  {
    SolutionSpaceNonEmpty(c);
    var space := SolutionSpace(c);
    var counts := Scores(space, frames);
    var i := IndexOfBest(counts);
    SearchResult(i, space[i], counts[i])
  }

  /** When some candidate checks on every frame, the search returns one
      that does too. */
  lemma CrcIterateFindsPerfectCandidate(c: CrcCandidates, frames: seq<seq<Bit>>, n: nat)
    requires c.crcLen <= 64 && NonEmptyFactors(c)
    requires n < |SolutionSpace(c)|
    requires forall k :: 0 <= k < |frames| ==> Matches(SolutionSpace(c)[n], frames[k])
    ensures forall k :: 0 <= k < |frames| ==> Matches(CrcIterate(c, frames).best, frames[k])
  {
    var res := CrcIterate(c, frames);
    MatchCountExtremes(SolutionSpace(c)[n], frames);
    MatchCountExtremes(res.best, frames);
  }

  /** The two passes of the source: count successes per candidate, then
      keep the first strictly larger score. */
  method SelectBest(space: seq<CrcDefinition>, frames: seq<seq<Bit>>) returns (index: nat, successes: nat)
    requires |space| > 0
    ensures index < |space| && successes == MatchCount(space[index], frames)
    ensures index == IndexOfBest(Scores(space, frames))
  {
    var counts: seq<nat> := [];
    var n := 0;
    while n < |space|
      invariant n <= |space| && |counts| == n
      invariant forall k :: 0 <= k < n ==> counts[k] == MatchCount(space[k], frames)
    {
      counts := counts + [MatchCount(space[n], frames)];
      n := n + 1;
    }
    index, successes := 0, counts[0];
    var m := 1;
    while m < |counts|
      invariant 1 <= m <= |counts| && index < m && successes == counts[index]
      invariant forall k :: 0 <= k < m ==> counts[k] <= successes
      invariant forall k :: 0 <= k < index ==> counts[k] < successes
    {
      if counts[m] > successes {
        index, successes := m, counts[m];
      }
      m := m + 1;
    }
    assert counts == Scores(space, frames);
    IndexOfBestUnique(counts, index);
  }
}
